=== FILE: README.md ===
# minicron crontab editing, modelled in Dafny

minicron keeps the jobs it runs in the system crontab of each host, and it
changes that file through SSH with shell commands: `Minicron::Cron` in
`lib/minicron/cron.rb`. This project models that class:

- building a job's crontab line (`escape_command`, `build_minicron_command`);
- the read / edit / stage / check / rename protocol of `find_and_replace`;
- the append-then-tail protocol of `add_schedule`;
- `update_schedule` and `delete_schedule` as uses of `find_and_replace`;
- the cascades `delete_job` (every schedule of a job) and `delete_host`
  (every job of a host), which stop at the first failure.

The host is a value `Remote(live, tmp)`: the contents of `/etc/crontab` and
of `/etc/crontab.tmp`, or `None` when the staging file does not exist. Each
operation is a pure function that returns a `Run`. A `Run` holds the result
(`Ok` or one of the five error kinds the code raises), the host afterwards,
and the remote commands issued, in order.

The read-only commands `cat`, `grep -F` and `tail -n 1` are computed from the
files, line by line. The write commands (`echo … > tmp`, `echo … >> crontab`,
`mv`) are not. For each of them, the caller supplies what the host did:

- the stdout that came back, where `&& echo 'y' || echo 'n'` puts its sentinel;
- the text that actually landed in the file, or whether the rename happened.

These outcomes are independent of each other. So every guarantee below holds
in the model whatever the remote did, including a host that answers `y` and
wrote nothing. The model's `grep` searches for the pattern as given. For a
job line that the shell rewrites, that is not what the program searches for;
see "## Left out" for the guarantees this affects.
Ruby's `String#strip` is modelled exactly: NUL, tab, line feed, vertical tab,
form feed, carriage return and space are removed at both ends.

The in-memory edit `crontab[find] = replace` replaces the first occurrence of
`find` anywhere in the text. This is a plain substring match, and the
`Matching` mode `Substring` models it as written. The mode `WholeLine` only
accepts an occurrence that fills a whole line. Every protocol property is
proved for both modes. For a delete, the modes differ whenever the first
occurrence of the job line in the crontab is not a complete line. An update
to the same schedule gives back the stripped crontab unchanged in both modes
(`Edit.ReplaceBySelf`). The delete
case covers the input under
"## Findings". It also covers a job line followed by trailing whitespace that
is not at the end of the file (`Scenarios.TrailingBlankModesDiffer`).

Modules, one per file:

| file | module | contents |
|---|---|---|
| wrappers.dfy | `Wrappers` | `Option`, `Result` |
| text.dfy | `Text` | `strip`, occurrences, lines of a file |
| line_codec.dfy | `LineCodec` | the escaping and the job line |
| edit.dfy | `Edit` | `crontab[find] = replace`, both matching modes |
| remote_file.dfy | `RemoteFile` | host state, commands, outcomes, `grep`/`tail` |
| crontab_mutator.dfy | `CrontabMutator` | `find_and_replace` |
| schedules.dfy | `Schedules` | `add_schedule`, `update_schedule`, `delete_schedule` |
| cascade_deleter.dfy | `CascadeDeleter` | `delete_job`, `delete_host` |
| scenarios.dfy | `Scenarios` | concrete runs and the substring finding |

## Model

| member | source | states |
|---|---|---|
| Text.Strip | lib/minicron/cron.rb:46 | `strip` returns a text with no whitespace at either end. The result is empty exactly when the input is all whitespace. Otherwise it is the slice of the input after the leading whitespace, and only whitespace follows it. |
| Text.StripFrame | lib/minicron/cron.rb:46 | Any whitespace around a bare text is removed by `strip`, and the text itself comes back unchanged. |
| Text.StripSplit | lib/minicron/cron.rb:46 | Every input is its leading whitespace, its stripped text, and its trailing whitespace, in that order. |
| Text.StripIdempotent | lib/minicron/cron.rb:46 | Stripping twice is the same as stripping once. |
| Text.StripIgnoresSpaceSuffix | lib/minicron/cron.rb:46 | Whitespace appended to a text does not change its strip, so the line feed `echo` adds is invisible to the code. |
| Text.StripKeepsInterior | lib/minicron/cron.rb:46 | A character that lies between two visible characters survives `strip`, at its shifted position. |
| Text.LinesOfJoined | lib/minicron/cron.rb:66 | Splitting newline-terminated lines back into lines returns them exactly, as `grep` reads what it printed. |
| Text.JoinedOfLines | lib/minicron/cron.rb:66 | Joining a file's lines gives the file back, plus a line feed when its last line was unterminated. |
| Text.LinesOfAppend | lib/minicron/cron.rb:104 | Appending to a file that is empty or ends in a line feed adds exactly the lines of the appended text. |
| Text.ContainsIffSomeLine | lib/minicron/cron.rb:66 | A non-empty pattern with no line feed occurs in a file exactly when it occurs in one of its lines. This is how `grep -F` sees the file. |
| Text.WholeLineIffLine | lib/minicron/cron.rb:50 | A non-empty pattern with no line feed fills a whole line of the file exactly when it is one of the file's lines. |
| LineCodec.Escape | lib/minicron/cron.rb:20-22 | The escaped command is longer than the command by exactly the number of backslashes and single quotes in it. |
| LineCodec.EscapeAppend | lib/minicron/cron.rb:21 | `gsub` escapes each character on its own, so escaping a concatenation concatenates the escapings. |
| LineCodec.UnescapeEscape | lib/minicron/cron.rb:20-22 | Unescaping an escaped command returns the command. |
| LineCodec.EscapeUnescape | lib/minicron/cron.rb:20-22 | Every text that unescapes to a command is that command's escaping, so the two are inverses on escaped texts. |
| LineCodec.EscapeInjective | lib/minicron/cron.rb:20-22 | Two commands with the same escaping are equal. |
| LineCodec.EscapedQuotesArePrefixed | lib/minicron/cron.rb:21 | Every single quote in an escaped command has a backslash right before it. |
| LineCodec.EscapeNoNewline | lib/minicron/cron.rb:21 | Escaping adds no line feed. |
| LineCodec.BuildLine | lib/minicron/cron.rb:29-34 | The job line starts with the schedule and ends with the closing quote. Its length is the schedule, the fixed ` root minicron run '` text, the escaped command and one quote. |
| LineCodec.ParseBuildLine | lib/minicron/cron.rb:29-34 | Reading a job line back for its schedule returns the command it was built from. |
| LineCodec.BuildParseLine | lib/minicron/cron.rb:29-34 | Any line that reads back as a command is exactly the line built from that command and schedule. |
| LineCodec.BuildLineInjectiveInCommand | lib/minicron/cron.rb:29-34 | For one schedule, different commands give different lines. |
| LineCodec.BuildLineInjectiveInSchedule | lib/minicron/cron.rb:29-34 | For one command, different schedules give different lines. |
| LineCodec.BuildLineVisible | lib/minicron/cron.rb:33 | A job line always has a visible character. |
| LineCodec.BuildLineNoNewline | lib/minicron/cron.rb:33 | A line built from a command and a schedule without line feeds has no line feed. |
| LineCodec.BuildLineBare | lib/minicron/cron.rb:33 | When the schedule does not start with whitespace, the job line has none at either end, and `strip` leaves it alone. |
| Edit.Search | lib/minicron/cron.rb:50 | The search returns the first match at or after its start position, or `None` when there is none from there on. |
| Edit.Replace | lib/minicron/cron.rb:49-53 | The edit fails exactly when `find` matches nowhere. When it succeeds, it splices `replace` in at the first match. |
| Edit.ReplaceKeepsSurroundings | lib/minicron/cron.rb:50 | The text before the first match and the text after it are kept unchanged. |
| Edit.ReplaceBySelf | lib/minicron/cron.rb:50 | Replacing a found text by itself changes nothing. |
| Edit.SubstringNotFoundIff | lib/minicron/cron.rb:49-53 | As written, a delete raises exactly when the built line is not a substring of the crontab. |
| Edit.WholeLineNotFoundIff | lib/minicron/cron.rb:49-53 | When matching whole lines, the edit fails exactly when no line of the crontab is `find`. |
| Edit.WholeLineEditIsLineAnchored | lib/minicron/cron.rb:50 | When matching whole lines, a successful edit replaces one complete line. The text before it is empty or ends a line, and the text after it is empty or starts the next line. |
| RemoteFile.Confirmed | lib/minicron/cron.rb:59 | The definition of the sentinel test at lines 59, 85 and 107: the stripped stdout is `y`. `RemoteFile.YesIsConfirmed` states that `echo 'y'` passes it. |
| RemoteFile.YesIsConfirmed | lib/minicron/cron.rb:56-59 | The stdout `y` plus a line feed passes the `!= 'y'` test once stripped. |
| RemoteFile.WriteTmp | lib/minicron/cron.rb:56 | Staging never touches the live crontab. The staging file holds whatever landed, and is left as it was when nothing landed. |
| RemoteFile.Rename | lib/minicron/cron.rb:83 | The live crontab either stays or becomes the staged text. After a rename of an existing staging file, that file is gone. |
| RemoteFile.AppendToLive | lib/minicron/cron.rb:104 | An append keeps the old crontab as a prefix and adds exactly what landed. |
| RemoteFile.Matches | lib/minicron/cron.rb:66 | `grep -F` selects exactly the lines that contain the pattern. Each selected line appears as many times as it occurs in the file, so a duplicated job line is printed twice. |
| RemoteFile.GrepOutput | lib/minicron/cron.rb:66 | Read back line by line, what `grep -F` prints for an existing staging file is exactly the lines that contain the pattern. |
| RemoteFile.TailOutput | lib/minicron/cron.rb:112 | `tail -n 1` prints the file's last line, without a line feed. It prints nothing for a file with no lines. |
| RemoteFile.MatchesNone | lib/minicron/cron.rb:66 | When no line contains the pattern, `grep` selects nothing. |
| RemoteFile.GrepBlankIff | lib/minicron/cron.rb:66-71 | The stripped `grep` output is empty exactly when no line contains a pattern with a visible character. |
| RemoteFile.GrepExactIff | lib/minicron/cron.rb:74-79 | The stripped `grep` output equals the pattern exactly when one line contains it and that line, stripped, is the pattern. |
| RemoteFile.LinesAfterAppend | lib/minicron/cron.rb:101-104 | Appending a line and a line feed to a file that is empty or ends in a line feed adds exactly that line. |
| RemoteFile.TailAfterAppend | lib/minicron/cron.rb:112 | After such an append, `tail -n 1` prints the appended line. |
| CrontabMutator.Edited | lib/minicron/cron.rb:46-50 | The definition of the edit: the stripped crontab with the first match of `find` replaced. `CrontabMutator.FaithfulReplaceResult` and the `Edit` lemmas state its properties. |
| CrontabMutator.Verified | lib/minicron/cron.rb:63-80 | The definition of the check: the stripped `grep` output equals `replace`, which is empty for a delete. `CrontabMutator.DeleteLeavesNoOccurrence` and `CrontabMutator.UpdateLeavesOneLine` state what it guarantees. |
| CrontabMutator.Protocol | lib/minicron/cron.rb:42-88 | Each step happens only when the one before succeeded. A not-found edit raises the not-found error and issues only the read. An unconfirmed stage raises the write error and issues no `grep`. A failed check raises the verification error and issues no `mv`. An unconfirmed rename raises the commit error after all four commands. The live file changes only when the host renamed, and then only after a copy that was staged with confirmation and passed the check. When the host renamed, whatever the staging file held becomes live and the staging file is gone. |
| CrontabMutator.FindAndReplace | lib/minicron/cron.rb:42-88 | See below. |
| CrontabMutator.DeleteLeavesNoOccurrence | lib/minicron/cron.rb:63-71 | A delete that changed the live crontab left no occurrence of `find` in it. |
| CrontabMutator.UpdateLeavesOneLine | lib/minicron/cron.rb:72-80 | An update that changed the live crontab left exactly one line containing `replace`, and that line stripped is `replace`. |
| CrontabMutator.FaithfulHostCommits | lib/minicron/cron.rb:42-88 | With a host that writes and renames as asked, a run whose staged text passes the check succeeds. It issues all four commands and leaves the edited text, with a line feed, as the live crontab. |
| CrontabMutator.FaithfulReplaceResult | lib/minicron/cron.rb:46-50 | With such a host, the new crontab is the stripped old one with `replace` in place of the first match. Nothing else changes. |
| Schedules.AddProtocol | lib/minicron/cron.rb:104-117 | An unconfirmed append raises the append error before `tail`. A confirmed append whose tail does not match raises the verification error. The add succeeds exactly when the append was confirmed and the tail matched. |
| Schedules.AddSchedule | lib/minicron/cron.rb:95-118 | See below. |
| Schedules.FaithfulAdd | lib/minicron/cron.rb:95-118 | On a crontab that is empty or ends in a line feed, a host that appends exactly the line makes the add succeed. The crontab becomes the old one followed by the line. |
| Schedules.FaithfulAddAppendsOneLine | lib/minicron/cron.rb:95-118 | In that case the crontab gains exactly one line, the job's, at the end. |
| Schedules.UpdateSchedule | lib/minicron/cron.rb:126-138 | The check always greps for the new line. The update fails as not found exactly when the line for the old schedule cannot be found. |
| Schedules.DeleteSchedule | lib/minicron/cron.rb:145-154 | The check always greps for the removed line. The delete fails as not found exactly when the schedule's line cannot be found. |
| Schedules.UpdateScheduleLeavesNewLine | lib/minicron/cron.rb:126-138 | An update that changed the crontab left exactly one line containing the new job line, and that line stripped is the job line. |
| Schedules.DeleteScheduleRemovesLine | lib/minicron/cron.rb:145-154 | A delete that changed the crontab left no occurrence of the schedule's line. |
| CascadeDeleter.Cascade | lib/minicron/cron.rb:169-171 | The definition of the `each` loop under exceptions: items run in order, each on the host the previous one left, and the first error ends the loop. `CascadeDeleter.CascadeAppend` and `CascadeDeleter.CascadeFirstError` state its properties. |
| CascadeDeleter.CascadeAppend | lib/minicron/cron.rb:169-171 | Running the loop over two lists in a row is the first loop, and then the second only if the first succeeded. |
| CascadeDeleter.CascadeFirstError | lib/minicron/cron.rb:169-171 | A failed loop failed at exactly one item, after all the earlier ones succeeded. Its result, host and trace are those of that item, and no later item runs. A successful loop stopped nowhere. |
| CascadeDeleter.CascadePrefixOk | lib/minicron/cron.rb:169-171 | A successful loop succeeds on every prefix of its items. |
| CascadeDeleter.CascadeOkTrace | lib/minicron/cron.rb:169-171 | When every successful step issues a known number of commands, a successful loop issues their sum. |
| CascadeDeleter.DeleteJobStopsAtFirstError | lib/minicron/cron.rb:160-172 | A failed `delete_job` deleted the schedules before some position, and failed on the schedule there. Its error and host are that delete's. Later schedules are not attempted. |
| CascadeDeleter.DeleteJobSuccessCoversPrefixes | lib/minicron/cron.rb:160-172 | A successful `delete_job` also succeeds on any first part of the schedule list. |
| CascadeDeleter.ScheduleStepTrace | lib/minicron/cron.rb:145-154 | A successful schedule delete issues exactly four commands: read, stage, check and rename. |
| CascadeDeleter.DeleteJob | lib/minicron/cron.rb:160-172 | A successful `delete_job` issued the four commands of every schedule, and nothing else. Its failure behaviour is stated by `CascadeDeleter.DeleteJobStopsAtFirstError`. |
| CascadeDeleter.DeleteHostStopsAtFirstError | lib/minicron/cron.rb:178-190 | A failed `delete_host` deleted the jobs before some position, and failed in that job's `delete_job`, which may itself be partly done. Later jobs are not attempted. |
| CascadeDeleter.JobStepTrace | lib/minicron/cron.rb:187-189 | A successful job step issues four commands per schedule of the job. |
| CascadeDeleter.TotalJobCost | lib/minicron/cron.rb:187-189 | Over a host's jobs, the per-job costs add up to four times the number of schedules. |
| CascadeDeleter.DeleteHost | lib/minicron/cron.rb:178-190 | A successful `delete_host` issued four commands per schedule over all the host's jobs, and nothing else. Its failure behaviour is stated by `CascadeDeleter.DeleteHostStopsAtFirstError`. |
| Scenarios.UpdateWholeFile | lib/minicron/cron.rb:126-138 | On a crontab holding only the job's line, a host that does as told moves the job to the new schedule. The crontab becomes the new line. |
| Scenarios.UpdateEveryMinuteToHourly | lib/minicron/cron.rb:126-138 | Moving `echo hi` from `* * * * *` to `0 * * * *` leaves exactly the hourly line. |
| Scenarios.AddBackupToEmpty | lib/minicron/cron.rb:95-118 | Adding `backup.sh` at `0 3 * * *` to an empty crontab leaves exactly its line. |
| Scenarios.SubstringDeleteKeepsFront | lib/minicron/cron.rb:145-154 | As written: when the schedule's line ends another line, a delete succeeds and leaves what precedes it. |
| Scenarios.SubstringDeleteCorruptsOtherLine | lib/minicron/cron.rb:50 | As written: deleting the absent schedule `5 * * * *` turns the line for `*/5 * * * *` into `*/`, and the delete reports success. |
| Scenarios.WholeLineDeleteRefusesSuffix | lib/minicron/cron.rb:145-154 | Corrected: with whole-line matching, a one-line crontab that merely ends with the schedule's line does not match. The delete fails as not found, with nothing touched. |
| Scenarios.WholeLineDeleteRefuses | lib/minicron/cron.rb:50 | Corrected: on the same crontab, deleting `5 * * * *` fails as not found, and the crontab is untouched. |
| Scenarios.TrailingBlankModesDiffer | lib/minicron/cron.rb:50 | A job line followed by a blank and then a shorter line is found by the substring edit, but the whole-line edit refuses it as not found. |

`CrontabMutator.FindAndReplace` states:

- The run fails as not found exactly when the edit finds nothing. In that
  case it issued only the read and touched nothing.
- The live crontab stays as it was unless the host renamed. It changes only
  at the rename, and only to text that passes the check.
- The check greps for `find` on a delete and for `replace` otherwise.
- The rename is issued only after a confirmed staging write whose file passed
  the check.
- Each failing step raises its own error and issues nothing after it. An
  unconfirmed stage raises the write error after the read and the stage. A
  staged file that fails the check raises the verification error before any
  `mv`. An unconfirmed rename raises the commit error after all four
  commands.
- The run succeeds exactly when the edit found `find`, both sentinels were
  `y`, and the check passed. A successful run issued the `mv`.
- A change to the live crontab means the `mv` was issued, and the new live
  text is what the staging write left.
- A host that wrote and renamed leaves exactly the staged text live.
- Once the `mv` is issued and the host renames, whatever the staging file
  holds becomes live and the staging file is gone. That holds even when the
  staging write did not land and the file is a stale copy from an earlier
  run.

`Schedules.AddSchedule` states:

- The text that landed is appended to the live crontab, and the staging file
  is untouched. When nothing landed, nothing changes.
- An unconfirmed append fails without running `tail`.
- A confirmed append whose last line, stripped, is not the job line raises
  the verification error after the `tail`.
- The add succeeds exactly when the append was confirmed and the last line,
  stripped, is the job line.
- A successful add issued the append and the `tail`.

## Left out

- The SSH transport: opening the connection, and the `conn ||= @ssh.open`
  default. Each operation works directly on the host state.
- Shell quoting is not modelled. That covers `shellescape` on the staged
  crontab, the double-quoted interpolation of the line into `echo` and
  `grep` (lines 66, 74 and 101), and escapes that some `echo`
  implementations interpret. A line containing `"`, `$`, a backtick or a
  backslash may reach the host differently from what the model writes. The
  model lets the caller choose what landed instead, and `grep` searches for
  the pattern as given.
- The backslash matters most, because `escape_command` doubles every
  backslash. Inside double quotes the shell turns `\\` back into `\`. So
  for a command that contains a backslash, the appended line is not the
  built line, and the `tail` check (line 115) fails. On an update, `grep`
  looks for a different text than the built line, and the check (line 77)
  fails. `Schedules.FaithfulAdd`, `Scenarios.UpdateWholeFile` and the other
  faithful-host lemmas describe a host that these commands cannot produce
  for such a job. They apply only to commands without those characters.
- CrontabMutator.DeleteLeavesNoOccurrence does not carry over to a job line
  that contains `\`, `$`, a backtick or `"`. The program puts the line inside
  double quotes for `grep` (line 66). The shell then rewrites it, so `grep`
  looks for a different text and finds nothing. The check at line 69 passes
  whatever the staged file holds. A crontab holding such a line twice loses
  only the first copy, and the delete commits and reports success. The
  model's `Verified` refuses that staged file.
- Schedules.DeleteScheduleRemovesLine does not carry over to such jobs
  either, for the same reason. A job whose command contains `$`, such as
  `cd $HOME && …`, is one of them.
- Whole-line matching refuses a job line that carries trailing whitespace,
  such as the carriage return of a file with CRLF line endings, when that
  line is not the last. The code as written edits such a line.
- `grep -F` with a pattern that contains a line feed: the check lemmas
  require newline-free patterns, which every job line built from
  newline-free inputs is.
- The `Job`, `Schedule` and `Host` ActiveRecord models: a job is its command
  and its schedule strings, already formatted (`schedule.formatted`), and a
  host is its jobs in order.
- The exception message texts: each `raise` is one `CronError` kind.
- Concurrent edits of the crontab by other processes, and partial writes
  inside one command.
- The text `grep` prints for a missing staging file. The model assumes that
  `exec!` returns stderr along with stdout, so this text is non-empty.
- CascadeDeleter.DeleteJob and CascadeDeleter.DeleteHost require one host
  outcome per schedule. That is the shape of the input, not a condition on
  the host.
- A second effect of the substring match is not proved. When the crontab
  holds both the `*/5 * * * *` line and, after it, the `5 * * * *` line,
  deleting `5 * * * *` edits the first line. The check then still finds the
  second line, so the delete fails.

## Findings

| source | as written | input that shows it | evidently intended | confidence | as-written member | corrected member |
|---|---|---|---|---|---|---|
| lib/minicron/cron.rb:50 | `crontab[find] = replace` replaces the first occurrence of the job line anywhere, even inside a longer line | crontab `*/5 * * * * root minicron run 'x'` plus a line feed; `delete_schedule` of job `x` at schedule `5 * * * *`. The line for `5 * * * *` is found two characters into the `*/5` line. The crontab becomes `*/`, the `grep` check finds nothing and passes, and the delete reports success. | only a whole crontab line equal to the job line is replaced; the delete fails as not found | high, not executed | Scenarios.SubstringDeleteCorruptsOtherLine | Scenarios.WholeLineDeleteRefuses |

`Matching` selects the behaviour. Every protocol property in the table holds
for both modes. `Edit.WholeLineEditIsLineAnchored` and
`Edit.WholeLineNotFoundIff` state the intended behaviour of the corrected
mode: it replaces one complete line, and it fails exactly when no line is the
job line.

=== FILE: cascade_deleter.dfy ===
/** `delete_job` and `delete_host` (`lib/minicron/cron.rb` lines 160-190):
    delete a job's schedules, or a host's jobs, one after the other. The
    first error stops the loop and is returned as it is; what was deleted
    before it stays deleted, and nothing after it is attempted. */
module CascadeDeleter {
  import opened Wrappers
  import opened Edit
  import opened RemoteFile
  import opened CrontabMutator
  import opened Schedules

  /** A host and its jobs, in order. */
  datatype Host = Host(jobs: seq<Job>)

  /** Pairs the k-th elements of two sequences, as far as both go. */
  function Zip<A, B>(xs: seq<A>, ys: seq<B>): (zs: seq<(A, B)>)
    ensures |zs| == if |xs| <= |ys| then |xs| else |ys|
    ensures forall k :: 0 <= k < |zs| ==> zs[k] == (xs[k], ys[k])
  {
    var n := if |xs| <= |ys| then |xs| else |ys|;
    seq(n, k requires 0 <= k < n => (xs[k], ys[k]))
  }

  /** The loop both cascades share (Ruby's `each` with exceptions): run
      `step` on the items in order from where the previous one left the
      host; the first error ends the loop and is the loop's result. */
  function Cascade<T>(step: (Remote, T) -> Run, s: Remote, items: seq<T>): (r: Run)
    decreases |items|
  {
    if items == [] then Run(Ok(()), s, [])
    else
      var first := step(s, items[0]);
      if first.result.Err? then first
      else
        var rest := Cascade(step, first.remote, items[1..]);
        Run(rest.result, rest.remote, first.trace + rest.trace)
  }

  /** The cascade over `xs + ys` is the cascade over `xs` and, only if that
      succeeded, the cascade over `ys` from where it left the host. */
  lemma {:induction false} CascadeAppend<T>(step: (Remote, T) -> Run, s: Remote, xs: seq<T>, ys: seq<T>)
    ensures var a := Cascade(step, s, xs);
      Cascade(step, s, xs + ys) ==
        if a.result.Err? then a
        else
          var b := Cascade(step, a.remote, ys);
          Run(b.result, b.remote, a.trace + b.trace)
    decreases |xs|
  {
    if xs == [] {
      assert xs + ys == ys;
    } else {
      assert (xs + ys)[0] == xs[0];
      assert (xs + ys)[1..] == xs[1..] + ys;
      var first := step(s, xs[0]);
      if first.result.Ok? {
        CascadeAppend(step, first.remote, xs[1..], ys);
        var a' := Cascade(step, first.remote, xs[1..]);
        if a'.result.Ok? {
          var b := Cascade(step, a'.remote, ys);
          assert first.trace + (a'.trace + b.trace) == (first.trace + a'.trace) + b.trace;
        }
      }
    }
  }

  /** The cascade stops at item `k`: the items before it all succeeded and
      `k` itself failed. */
  predicate StopsAt<T>(step: (Remote, T) -> Run, s: Remote, items: seq<T>, k: nat) {
    && k < |items|
    && Cascade(step, s, items[..k]).result.Ok?
    && step(Cascade(step, s, items[..k]).remote, items[k]).result.Err?
  }

  /** A failed cascade failed at exactly one item: everything before it
      went through, its error and the host it left are the cascade's, and no
      later item is attempted. A successful cascade stopped nowhere. */
  lemma {:induction false} CascadeFirstError<T>(step: (Remote, T) -> Run, s: Remote, items: seq<T>)
    ensures var r := Cascade(step, s, items);
      r.result.Err? ==>
        exists k: nat ::
          && StopsAt(step, s, items, k)
          && (var before := Cascade(step, s, items[..k]);
              var failed := step(before.remote, items[k]);
              r == Run(failed.result, failed.remote, before.trace + failed.trace))
    ensures var r := Cascade(step, s, items);
      r.result.Ok? ==> forall k: nat :: !StopsAt(step, s, items, k)
    decreases |items|
  {
    var r := Cascade(step, s, items);
    if items != [] {
      var first := step(s, items[0]);
      assert items[..0] == [];
      if first.result.Err? {
        assert StopsAt(step, s, items, 0);
        assert [] + first.trace == first.trace;
      } else {
        var tail := items[1..];
        CascadeFirstError(step, first.remote, tail);
        forall k: nat | 0 < k <= |items|
          ensures Cascade(step, s, items[..k]) ==
                  var a := Cascade(step, first.remote, tail[..k - 1]);
                  Run(a.result, a.remote, first.trace + a.trace)
        {
          assert items[..k][0] == items[0];
          assert items[..k][1..] == tail[..k - 1];
        }
        if r.result.Err? {
          var k': nat :| StopsAt(step, first.remote, tail, k')
            && (var before := Cascade(step, first.remote, tail[..k']);
                var failed := step(before.remote, tail[k']);
                Cascade(step, first.remote, tail) == Run(failed.result, failed.remote, before.trace + failed.trace));
          var k := k' + 1;
          assert items[k] == tail[k'];
          assert StopsAt(step, s, items, k);
          var before' := Cascade(step, first.remote, tail[..k']);
          var failed := step(before'.remote, tail[k']);
          assert first.trace + (before'.trace + failed.trace) == (first.trace + before'.trace) + failed.trace;
        } else {
          forall k: nat ensures !StopsAt(step, s, items, k) {
            if 0 < k < |items| {
              assert items[k] == tail[k - 1];
              assert !StopsAt(step, first.remote, tail, k - 1);
            }
          }
        }
      }
    }
  }

  /** A successful cascade succeeded on every prefix of its items. */
  lemma CascadePrefixOk<T>(step: (Remote, T) -> Run, s: Remote, items: seq<T>, k: nat)
    requires k <= |items|
    requires Cascade(step, s, items).result.Ok?
    ensures Cascade(step, s, items[..k]).result.Ok?
  {
    CascadeAppend(step, s, items[..k], items[k..]);
    assert items[..k] + items[k..] == items;
  }

  /** The sum of `cost` over the items. */
  function Total<T>(cost: T -> nat, items: seq<T>): nat
    decreases |items|
  {
    if items == [] then 0 else cost(items[0]) + Total(cost, items[1..])
  }

  /** When every successful step issues `cost` of its item commands, a
      successful cascade issues the total. */
  lemma {:induction false} CascadeOkTrace<T>(step: (Remote, T) -> Run, cost: T -> nat, s: Remote, items: seq<T>)
    requires forall x: Remote, t: T :: step(x, t).result.Ok? ==> |step(x, t).trace| == cost(t)
    ensures var r := Cascade(step, s, items);
      r.result.Ok? ==> |r.trace| == Total(cost, items)
    decreases |items|
  {
    if items != [] {
      CascadeOkTrace(step, cost, step(s, items[0]).remote, items[1..]);
    }
  }

  /** One iteration of `delete_job`: delete one schedule of the job's
      command, with what the host does for that delete. */
  function ScheduleStep(mode: Matching, command: string): (Remote, (string, ReplaceEnv)) -> Run {
    (s: Remote, a: (string, ReplaceEnv)) => DeleteSchedule(mode, s, a.1, command, a.0)
  }

  /** `delete_job` (lines 160-172), with one host outcome per schedule. */
  function DeleteJob(mode: Matching, s: Remote, job: Job, envs: seq<ReplaceEnv>): (r: Run)
    requires |envs| == |job.schedules|
    // a success issued the read, stage, check and rename of every schedule, and nothing else
    ensures r.result.Ok? ==> |r.trace| == 4 * |job.schedules|
  {
    var items := Zip(job.schedules, envs);
    ScheduleStepTrace(mode, job.command);
    CascadeOkTrace(ScheduleStep(mode, job.command), (t: (string, ReplaceEnv)) => 4, s, items);
    TotalOfFour(items);
    Cascade(ScheduleStep(mode, job.command), s, items)
  }

  /** One iteration of `delete_host`: delete one job, with the host outcomes
      for its schedules. */
  function JobStep(mode: Matching): (Remote, (Job, seq<ReplaceEnv>)) -> Run {
    (s: Remote, a: (Job, seq<ReplaceEnv>)) => Cascade(ScheduleStep(mode, a.0.command), s, Zip(a.0.schedules, a.1))
  }

  /** `delete_host` (lines 178-190), with the host outcomes for each job's
      schedules. */
  function DeleteHost(mode: Matching, s: Remote, host: Host, envs: seq<seq<ReplaceEnv>>): (r: Run)
    requires |envs| == |host.jobs|
    requires forall k :: 0 <= k < |host.jobs| ==> |envs[k]| == |host.jobs[k].schedules|
    // a success issued the four commands of every schedule of every job, and nothing else
    ensures r.result.Ok? ==> |r.trace| == 4 * ScheduleCount(host.jobs)
  {
    JobStepTrace(mode);
    CascadeOkTrace(JobStep(mode), JobCost, s, Zip(host.jobs, envs));
    TotalJobCost(host.jobs, envs);
    Cascade(JobStep(mode), s, Zip(host.jobs, envs))
  }

  /** The cascade items of a job's first `k` schedules are the first `k`
      items of the job's cascade. */
  lemma ZipPrefix<A, B>(xs: seq<A>, ys: seq<B>, k: nat)
    requires |xs| == |ys| && k <= |xs|
    ensures Zip(xs, ys)[..k] == Zip(xs[..k], ys[..k])
  {
  }

  /** `delete_job` stops at the first schedule whose delete fails: the
      schedules before it were deleted one after the other, the error and the
      host are those the failing delete left, and later schedules are not
      attempted (their commands are not in the trace). */
  lemma DeleteJobStopsAtFirstError(mode: Matching, s: Remote, job: Job, envs: seq<ReplaceEnv>)
    requires |envs| == |job.schedules|
    ensures var r := DeleteJob(mode, s, job, envs);
      r.result.Err? ==>
        exists k: nat ::
          && k < |job.schedules|
          && (var before := DeleteJob(mode, s, Job(job.command, job.schedules[..k]), envs[..k]);
              var failed := DeleteSchedule(mode, before.remote, envs[k], job.command, job.schedules[k]);
              && before.result.Ok?
              && failed.result.Err?
              && r == Run(failed.result, failed.remote, before.trace + failed.trace))
  {
    var step := ScheduleStep(mode, job.command);
    var items := Zip(job.schedules, envs);
    CascadeFirstError(step, s, items);
    var r := DeleteJob(mode, s, job, envs);
    if r.result.Err? {
      var k: nat :| StopsAt(step, s, items, k)
        && (var before := Cascade(step, s, items[..k]);
            var failed := step(before.remote, items[k]);
            r == Run(failed.result, failed.remote, before.trace + failed.trace));
      ZipPrefix(job.schedules, envs, k);
      assert items[k] == (job.schedules[k], envs[k]);
      var before := Cascade(step, s, items[..k]);
      assert before == DeleteJob(mode, s, Job(job.command, job.schedules[..k]), envs[..k]);
      assert step(before.remote, items[k]) == DeleteSchedule(mode, before.remote, envs[k], job.command, job.schedules[k]);
    }
  }

  /** A successful `delete_job` went through every prefix of its schedules. */
  lemma DeleteJobSuccessCoversPrefixes(mode: Matching, s: Remote, job: Job, envs: seq<ReplaceEnv>, k: nat)
    requires |envs| == |job.schedules| && k <= |job.schedules|
    requires DeleteJob(mode, s, job, envs).result.Ok?
    ensures DeleteJob(mode, s, Job(job.command, job.schedules[..k]), envs[..k]).result.Ok?
  {
    ZipPrefix(job.schedules, envs, k);
    CascadePrefixOk(ScheduleStep(mode, job.command), s, Zip(job.schedules, envs), k);
  }

  /** A successful schedule delete issues exactly its four commands. */
  lemma ScheduleStepTrace(mode: Matching, command: string)
    ensures forall x: Remote, a: (string, ReplaceEnv) ::
      ScheduleStep(mode, command)(x, a).result.Ok? ==> |ScheduleStep(mode, command)(x, a).trace| == 4
  {
    forall x: Remote, a: (string, ReplaceEnv) | ScheduleStep(mode, command)(x, a).result.Ok?
      ensures |ScheduleStep(mode, command)(x, a).trace| == 4
    {
      var r := DeleteSchedule(mode, x, a.1, command, a.0);
      assert MoveTmp in r.trace;
    }
  }

  /** Four commands per item. */
  lemma {:induction false} TotalOfFour<T>(items: seq<T>)
    ensures Total((t: T) => 4, items) == 4 * |items|
    decreases |items|
  {
    if items != [] {
      TotalOfFour(items[1..]);
    }
  }

  /** `delete_host` stops at the first job whose `delete_job` fails, in the
      same way; that job may itself be partly deleted. */
  lemma DeleteHostStopsAtFirstError(mode: Matching, s: Remote, host: Host, envs: seq<seq<ReplaceEnv>>)
    requires |envs| == |host.jobs|
    requires forall k :: 0 <= k < |host.jobs| ==> |envs[k]| == |host.jobs[k].schedules|
    ensures var r := DeleteHost(mode, s, host, envs);
      r.result.Err? ==>
        exists k: nat ::
          && k < |host.jobs|
          && (var before := DeleteHost(mode, s, Host(host.jobs[..k]), envs[..k]);
              var failed := DeleteJob(mode, before.remote, host.jobs[k], envs[k]);
              && before.result.Ok?
              && failed.result.Err?
              && r == Run(failed.result, failed.remote, before.trace + failed.trace))
  {
    var step := JobStep(mode);
    var items := Zip(host.jobs, envs);
    CascadeFirstError(step, s, items);
    var r := DeleteHost(mode, s, host, envs);
    if r.result.Err? {
      var k: nat :| StopsAt(step, s, items, k)
        && (var before := Cascade(step, s, items[..k]);
            var failed := step(before.remote, items[k]);
            r == Run(failed.result, failed.remote, before.trace + failed.trace));
      ZipPrefix(host.jobs, envs, k);
      assert items[k] == (host.jobs[k], envs[k]);
    }
  }

  /** The number of schedules over all the jobs. */
  function ScheduleCount(jobs: seq<Job>): nat
    decreases |jobs|
  {
    if jobs == [] then 0 else |jobs[0].schedules| + ScheduleCount(jobs[1..])
  }

  /** What a successful job step costs: four commands per schedule it was
      given a host outcome for. */
  function JobCost(a: (Job, seq<ReplaceEnv>)): nat {
    4 * |Zip(a.0.schedules, a.1)|
  }

  /** A successful job step issues four commands per schedule. */
  lemma JobStepTraceAt(mode: Matching, x: Remote, a: (Job, seq<ReplaceEnv>))
    ensures var r := Cascade(ScheduleStep(mode, a.0.command), x, Zip(a.0.schedules, a.1));
      r.result.Ok? ==> |r.trace| == JobCost(a)
  {
    var items := Zip(a.0.schedules, a.1);
    ScheduleStepTrace(mode, a.0.command);
    CascadeOkTrace(ScheduleStep(mode, a.0.command), (t: (string, ReplaceEnv)) => 4, x, items);
    TotalOfFour(items);
  }

  /** The same, for every host state and job. */
  lemma JobStepTrace(mode: Matching)
    ensures forall x: Remote, a: (Job, seq<ReplaceEnv>) ::
      JobStep(mode)(x, a).result.Ok? ==> |JobStep(mode)(x, a).trace| == JobCost(a)
  {
    forall x: Remote, a: (Job, seq<ReplaceEnv>)
      ensures JobStep(mode)(x, a).result.Ok? ==> |JobStep(mode)(x, a).trace| == JobCost(a)
    {
      JobStepTraceAt(mode, x, a);
    }
  }

  /** With one host outcome per schedule, the job costs add up to four per
      schedule of the host. */
  lemma {:induction false} TotalJobCost(jobs: seq<Job>, envs: seq<seq<ReplaceEnv>>)
    requires |envs| == |jobs|
    requires forall k :: 0 <= k < |jobs| ==> |envs[k]| == |jobs[k].schedules|
    ensures Total(JobCost, Zip(jobs, envs)) == 4 * ScheduleCount(jobs)
    decreases |jobs|
  {
    if jobs != [] {
      var items := Zip(jobs, envs);
      assert items[1..] == Zip(jobs[1..], envs[1..]);
      assert items[0] == (jobs[0], envs[0]);
      TotalJobCost(jobs[1..], envs[1..]);
    }
  }
}

=== FILE: crontab_mutator.dfy ===
/** `find_and_replace` (`lib/minicron/cron.rb` lines 42-88): read the
    crontab, edit it in memory, stage the result, check the staged file with
    `grep`, and only then rename it over the live crontab. */
module CrontabMutator {
  import opened Wrappers
  import opened Text
  import opened Edit
  import opened RemoteFile

  /** What the host did at the two write steps of one run. */
  datatype ReplaceEnv = ReplaceEnv(stage: WriteOutcome, commit: MoveOutcome)

  /** The text `grep` looks for: `find` for a delete (`replace` empty),
      `replace` otherwise (lines 64-80). */
  function GrepPattern(find: string, replace: string): string {
    if replace == [] then find else replace
  }

  /** The check of lines 64-80: the stripped `grep` output equals `replace`,
      which for a delete means it is empty. */
  predicate Verified(tmp: Option<string>, find: string, replace: string) {
    Strip(GrepOutput(tmp, GrepPattern(find, replace))) == replace
  }

  /** The content `find_and_replace` means to write: the stripped crontab
      with the first match of `find` replaced. */
  function Edited(mode: Matching, live: string, find: string, replace: string): Result<string, EditError> {
    Replace(mode, Strip(live), find, replace)
  }

  /** All four commands of a run that gets as far as the rename. */
  function FullTrace(edited: string, pattern: string): seq<Command> {
    [ReadLive, StageTmp(edited), GrepTmp(pattern), MoveTmp]
  }

  /** The three yes/no answers `find_and_replace` branches on after the
      edit: was the staging write confirmed, did the staged file pass the
      check, was the rename confirmed. */
  datatype Answers = Answers(staged: bool, verified: bool, committed: bool)

  /** The control flow of lines 42-88 for given answers: each failed step
      raises its own error and issues no further command. */
  function Protocol(s: Remote, env: ReplaceEnv, edit: Result<string, EditError>, pattern: string, a: Answers): (r: Run)
    ensures r.result == Err(NotFoundError) <==> edit.Err?
    ensures r.result == Err(NotFoundError) ==> r.remote == s && r.trace == [ReadLive]
    ensures r.result.Err? && r.result.error != CommitError ==> r.remote.live == s.live
    // the live file changes only by renaming a staged copy that passed the check
    ensures r.remote.live != s.live ==>
      edit.Ok? && a.staged && a.verified && WriteTmp(s, env.stage).tmp == Some(r.remote.live)
    ensures |r.trace| >= 3 ==> r.trace[2] == GrepTmp(pattern)
    ensures MoveTmp in r.trace ==>
      edit.Ok? && a.staged && a.verified && r.trace == FullTrace(edit.value, pattern)
    // each failing step raises its own error and issues nothing after it
    ensures edit.Ok? && !a.staged ==>
      r.result == Err(WriteError) && r.trace == [ReadLive, StageTmp(edit.value)]
    ensures edit.Ok? && a.staged && !a.verified ==>
      r.result == Err(VerificationError) && r.trace == [ReadLive, StageTmp(edit.value), GrepTmp(pattern)]
    ensures edit.Ok? && a.staged && a.verified && !a.committed ==>
      r.result == Err(CommitError) && r.trace == FullTrace(edit.value, pattern)
    ensures r.result.Ok? <==> edit.Ok? && a.staged && a.verified && a.committed
    ensures r.result.Ok? ==> MoveTmp in r.trace
    ensures r.remote.live != s.live ==> MoveTmp in r.trace
    // without a rename the live file stays; a rename makes the staging file's content live
    ensures !env.commit.moved ==> r.remote.live == s.live
    ensures MoveTmp in r.trace && env.commit.moved && WriteTmp(s, env.stage).tmp.Some? ==>
      r.remote == Remote(WriteTmp(s, env.stage).tmp.value, None)
    ensures r.result.Ok? && env.stage.landed.Some? && env.commit.moved ==>
      r.remote == Remote(env.stage.landed.value, None)
  {
    match edit
    case Err(_) => Run(Err(NotFoundError), s, [ReadLive])
    case Ok(edited) =>
      var staged := WriteTmp(s, env.stage);
      if !a.staged then
        Run(Err(WriteError), staged, [ReadLive, StageTmp(edited)])
      else
        var checked := [ReadLive, StageTmp(edited), GrepTmp(pattern)];
        if !a.verified then
          Run(Err(VerificationError), staged, checked)
        else
          var renamed := Rename(staged, env.commit);
          if !a.committed then
            Run(Err(CommitError), renamed, checked + [MoveTmp])
          else
            Run(Ok(()), renamed, checked + [MoveTmp])
  }

  /** What the host answered in one run: the two sentinels, and the `grep`
      check on whatever the staging write left behind. */
  function Observed(s: Remote, env: ReplaceEnv, find: string, replace: string): Answers {
    Answers(
      Confirmed(env.stage.echo),
      Verified(WriteTmp(s, env.stage).tmp, find, replace),
      Confirmed(env.commit.echo))
  }

  /** `find_and_replace` (lines 42-88). */
  function FindAndReplace(mode: Matching, s: Remote, env: ReplaceEnv, find: string, replace: string): (r: Run)
    // `find` absent: fail at the edit, before any write, with nothing touched
    ensures r.result == Err(NotFoundError) <==> Edited(mode, s.live, find, replace).Err?
    ensures r.result == Err(NotFoundError) ==> r.remote == s && r.trace == [ReadLive]
    // the live crontab changes only at the rename, and only to text that passed the check
    ensures r.result.Err? && r.result.error != CommitError ==> r.remote.live == s.live
    ensures r.remote.live != s.live ==> Verified(Some(r.remote.live), find, replace)
    ensures r.remote.live != s.live ==> MoveTmp in r.trace && WriteTmp(s, env.stage).tmp == Some(r.remote.live)
    // without a rename the live file stays; a rename makes whatever the staging file holds live,
    // even a stale copy left by an earlier run
    ensures !env.commit.moved ==> r.remote.live == s.live
    ensures MoveTmp in r.trace && env.commit.moved && WriteTmp(s, env.stage).tmp.Some? ==>
      r.remote == Remote(WriteTmp(s, env.stage).tmp.value, None)
    // the check greps for `find` on a delete and for `replace` otherwise
    ensures |r.trace| >= 3 ==> r.trace[2] == GrepTmp(GrepPattern(find, replace))
    // the rename is issued only after a confirmed staging write whose file passed the check
    ensures MoveTmp in r.trace ==>
      && Edited(mode, s.live, find, replace).Ok?
      && r.trace == FullTrace(Edited(mode, s.live, find, replace).value, GrepPattern(find, replace))
      && Confirmed(env.stage.echo)
      && Verified(WriteTmp(s, env.stage).tmp, find, replace)
    // each failing step raises its own error and issues nothing after it
    ensures Edited(mode, s.live, find, replace).Ok? && !Confirmed(env.stage.echo) ==>
      && r.result == Err(WriteError)
      && r.trace == [ReadLive, StageTmp(Edited(mode, s.live, find, replace).value)]
    ensures Edited(mode, s.live, find, replace).Ok? && Confirmed(env.stage.echo)
            && !Verified(WriteTmp(s, env.stage).tmp, find, replace) ==>
      && r.result == Err(VerificationError)
      && r.trace == [ReadLive, StageTmp(Edited(mode, s.live, find, replace).value), GrepTmp(GrepPattern(find, replace))]
    ensures Edited(mode, s.live, find, replace).Ok? && Confirmed(env.stage.echo)
            && Verified(WriteTmp(s, env.stage).tmp, find, replace) && !Confirmed(env.commit.echo) ==>
      && r.result == Err(CommitError)
      && r.trace == FullTrace(Edited(mode, s.live, find, replace).value, GrepPattern(find, replace))
    // success exactly when the edit found `find`, both sentinels were `y` and the check passed
    ensures r.result.Ok? <==>
      && Edited(mode, s.live, find, replace).Ok?
      && Confirmed(env.stage.echo)
      && Verified(WriteTmp(s, env.stage).tmp, find, replace)
      && Confirmed(env.commit.echo)
    ensures r.result.Ok? ==> MoveTmp in r.trace
    // a host that wrote and renamed leaves exactly the staged text live, and no staging file
    ensures r.result.Ok? && env.stage.landed.Some? && env.commit.moved ==>
      r.remote == Remote(env.stage.landed.value, None)
  {
    Protocol(s, env, Edited(mode, s.live, find, replace), GrepPattern(find, replace), Observed(s, env, find, replace))
  }

  /** A delete that changed the live crontab removed `find` from it
      altogether: the check left no line containing it, and a newline-free
      `find` cannot straddle lines. */
  lemma DeleteLeavesNoOccurrence(mode: Matching, s: Remote, env: ReplaceEnv, find: string)
    requires HasVisible(find) && NoNewline(find)
    ensures var r := FindAndReplace(mode, s, env, find, []);
      r.remote.live != s.live ==> !Contains(r.remote.live, find)
    ensures var r := FindAndReplace(mode, s, env, find, []);
      r.result.Ok? && env.stage.landed.Some? && env.commit.moved ==> !Contains(r.remote.live, find)
  {
    var r := FindAndReplace(mode, s, env, find, []);
    assert |find| > 0;
    var t := r.remote.live;
    if r.remote.live != s.live || (r.result.Ok? && env.stage.landed.Some? && env.commit.moved) {
      assert Verified(Some(t), find, []);
      GrepBlankIff(Lines(t), find);
      ContainsIffSomeLine(t, find);
    }
  }

  /** An update that changed the live crontab left exactly one line
      containing `replace`, and that line, stripped, is `replace`. */
  lemma UpdateLeavesOneLine(mode: Matching, s: Remote, env: ReplaceEnv, find: string, replace: string)
    requires HasVisible(replace) && NoNewline(replace)
    ensures var r := FindAndReplace(mode, s, env, find, replace);
      r.remote.live != s.live ==>
        var ms := Matches(Lines(r.remote.live), replace);
        |ms| == 1 && Strip(ms[0]) == replace
    ensures var r := FindAndReplace(mode, s, env, find, replace);
      r.result.Ok? && env.stage.landed.Some? && env.commit.moved ==>
        var ms := Matches(Lines(r.remote.live), replace);
        |ms| == 1 && Strip(ms[0]) == replace
  {
    var r := FindAndReplace(mode, s, env, find, replace);
    assert replace != [];
    var t := r.remote.live;
    if r.remote.live != s.live || (r.result.Ok? && env.stage.landed.Some? && env.commit.moved) {
      assert Verified(Some(t), find, replace);
      GrepExactIff(Lines(t), replace);
    }
  }

  /** With a host that writes and renames as asked, a run whose staged file
      passes the check succeeds and leaves the edited crontab, terminated by
      the line feed `echo` adds, as the live file. */
  lemma FaithfulHostCommits(mode: Matching, s: Remote, find: string, replace: string, edited: string)
    requires Edited(mode, s.live, find, replace) == Ok(edited)
    requires Verified(Some(edited + "\n"), find, replace)
    ensures var env := ReplaceEnv(WriteOutcome(Yes, Some(edited + "\n")), MoveOutcome(Yes, true));
      FindAndReplace(mode, s, env, find, replace)
        == Run(Ok(()), Remote(edited + "\n", None), FullTrace(edited, GrepPattern(find, replace)))
  {
    YesIsConfirmed();
  }

  /** With a faithful host, replacing the first match of `find` in a crontab
      yields the text before it, `replace`, and the text after it — nothing
      else changes beyond the surrounding whitespace `strip` drops. */
  lemma FaithfulReplaceResult(mode: Matching, s: Remote, find: string, replace: string, i: nat)
    requires FirstMatchAt(mode, Strip(s.live), find, i)
    requires var c := Strip(s.live);
      Verified(Some(c[..i] + replace + c[i + |find|..] + "\n"), find, replace)
    ensures var c := Strip(s.live);
      var edited := c[..i] + replace + c[i + |find|..];
      var env := ReplaceEnv(WriteOutcome(Yes, Some(edited + "\n")), MoveOutcome(Yes, true));
      var r := FindAndReplace(mode, s, env, find, replace);
      r.result.Ok? && r.remote.live == edited + "\n" && c == c[..i] + find + c[i + |find|..]
  {
    var c := Strip(s.live);
    ReplaceKeepsSurroundings(mode, c, find, replace, i);
    FaithfulHostCommits(mode, s, find, replace, c[..i] + replace + c[i + |find|..]);
  }
}

=== FILE: edit.dfy ===
/** The in-memory edit of `find_and_replace`, `crontab[find] = replace`
    (`lib/minicron/cron.rb` line 50), and its line-anchored correction. */
module Edit {
  import opened Wrappers
  import opened Text

  datatype EditError = NotFound

  /** How `find` is looked for. `Substring` is Ruby's `String#[]=` with a
      string index, as the source does it: the first occurrence anywhere,
      even inside a longer line. `WholeLine` only accepts an occurrence that
      fills a whole line of the crontab. */
  datatype Matching = Substring | WholeLine

  predicate MatchAt(mode: Matching, s: string, find: string, i: nat) {
    match mode
    case Substring => OccursAt(s, find, i)
    case WholeLine => WholeLineAt(s, find, i)
  }

  /** `i` is the first place where `find` matches. */
  predicate FirstMatchAt(mode: Matching, s: string, find: string, i: nat) {
    MatchAt(mode, s, find, i) && forall j: nat :: j < i ==> !MatchAt(mode, s, find, j)
  }

  /** Left-to-right search for the first match at or after `from`. */
  function Search(mode: Matching, s: string, find: string, from: nat): (r: Option<nat>)
    ensures r.Some? ==> from <= r.value && MatchAt(mode, s, find, r.value)
    ensures r.Some? ==> forall j: nat :: from <= j < r.value ==> !MatchAt(mode, s, find, j)
    ensures r.None? ==> forall j: nat :: from <= j ==> !MatchAt(mode, s, find, j)
    decreases |s| + 1 - from
  {
    if from + |find| > |s| then None
    else if MatchAt(mode, s, find, from) then Some(from)
    else Search(mode, s, find, from + 1)
  }

  /** Replaces the first match of `find` in `s` by `replace`; `NotFound` when
      there is none (Ruby raises `IndexError: string not matched`). An empty
      `find` matches at the front under `Substring`, as in Ruby. */
  function Replace(mode: Matching, s: string, find: string, replace: string): (r: Result<string, EditError>)
    ensures r.Err? <==> forall i: nat :: !MatchAt(mode, s, find, i)
    ensures r.Ok? ==> exists i: nat :: FirstMatchAt(mode, s, find, i)
                        && r.value == s[..i] + replace + s[i + |find|..]
  {
    match Search(mode, s, find, 0)
    case None => Err(NotFound)
    case Some(i) =>
      assert FirstMatchAt(mode, s, find, i);
      Ok(s[..i] + replace + s[i + |find|..])
  }

  /** The edit is determined by the first match: text before and after it is
      kept character for character. */
  lemma ReplaceKeepsSurroundings(mode: Matching, s: string, find: string, replace: string, i: nat)
    requires FirstMatchAt(mode, s, find, i)
    ensures Replace(mode, s, find, replace) == Ok(s[..i] + replace + s[i + |find|..])
    ensures s == s[..i] + find + s[i + |find|..]
  {
    var r := Replace(mode, s, find, replace);
    var i': nat :| FirstMatchAt(mode, s, find, i') && r.value == s[..i'] + replace + s[i' + |find|..];
    assert i' == i by {
      assert !(i' < i) && !(i < i');
    }
    assert s == s[..i] + s[i..i + |find|] + s[i + |find|..];
  }

  /** Replacing a text by itself leaves the crontab as it was. */
  lemma ReplaceBySelf(mode: Matching, s: string, find: string)
    requires Replace(mode, s, find, find).Ok?
    ensures Replace(mode, s, find, find) == Ok(s)
  {
    var i: nat :| FirstMatchAt(mode, s, find, i) && Replace(mode, s, find, find).value == s[..i] + find + s[i + |find|..];
    ReplaceKeepsSurroundings(mode, s, find, find, i);
  }

  /** Under `Substring` the edit fails exactly when `find` is nowhere in the
      crontab. */
  lemma SubstringNotFoundIff(s: string, find: string)
    ensures Replace(Substring, s, find, []).Err? <==> !Contains(s, find)
  {
    if Replace(Substring, s, find, []).Ok? {
      var i: nat :| FirstMatchAt(Substring, s, find, i) && Replace(Substring, s, find, []).value == s[..i] + s[i + |find|..];
      assert OccursAt(s, find, i);
    } else {
      assert forall i: nat :: !OccursAt(s, find, i) by {
        forall i: nat ensures !OccursAt(s, find, i) {
          assert !MatchAt(Substring, s, find, i);
        }
      }
    }
  }

  /** Under `WholeLine` the edit fails exactly when no line of the crontab is
      `find` (for the newline-free, non-empty `find` a built line is). */
  lemma WholeLineNotFoundIff(s: string, find: string, replace: string)
    requires |find| > 0 && NoNewline(find)
    ensures Replace(WholeLine, s, find, replace).Err? <==> find !in Lines(s)
  {
    WholeLineIffLine(s, find);
    if Replace(WholeLine, s, find, replace).Ok? {
      var i: nat :| FirstMatchAt(WholeLine, s, find, i) && Replace(WholeLine, s, find, replace).value == s[..i] + replace + s[i + |find|..];
      assert WholeLineAt(s, find, i);
    } else {
      assert !HasWholeLine(s, find) by {
        assert forall i: nat :: !WholeLineAt(s, find, i) by {
          forall i: nat ensures !WholeLineAt(s, find, i) {
            assert !MatchAt(WholeLine, s, find, i);
          }
        }
      }
    }
  }

  /** `s` is `pre`, then `mid` as a complete line, then `post`. */
  predicate LineAround(s: string, pre: string, mid: string, post: string) {
    && s == pre + mid + post
    && (pre == [] || pre[|pre| - 1] == '\n')
    && (post == [] || post[0] == '\n')
  }

  /** Under `WholeLine` a successful edit replaces one complete line: what
      precedes it is empty or ends a line, and what follows is empty or
      starts the next one. */
  lemma WholeLineEditIsLineAnchored(s: string, find: string, replace: string)
    requires Replace(WholeLine, s, find, replace).Ok?
    ensures exists pre, post ::
      && LineAround(s, pre, find, post)
      && Replace(WholeLine, s, find, replace).value == pre + replace + post
  {
    var i: nat :| FirstMatchAt(WholeLine, s, find, i) && Replace(WholeLine, s, find, replace).value == s[..i] + replace + s[i + |find|..];
    ReplaceKeepsSurroundings(WholeLine, s, find, replace, i);
    var pre, post := s[..i], s[i + |find|..];
    assert WholeLineAt(s, find, i);
    assert pre == [] || pre[|pre| - 1] == '\n' by {
      if pre != [] { assert pre[|pre| - 1] == s[i - 1]; }
    }
    assert post == [] || post[0] == '\n' by {
      if post != [] { assert post[0] == s[i + |find|]; }
    }
    assert s == pre + find + post;
    assert LineAround(s, pre, find, post);
    assert Replace(WholeLine, s, find, replace).value == pre + replace + post;
  }
}

=== FILE: line_codec.dfy ===
/** The crontab line for one job schedule, `lib/minicron/cron.rb`
    `escape_command` and `build_minicron_command`. */
module LineCodec {
  import opened Wrappers
  import opened Text

  /** The characters `escape_command` puts a backslash in front of. */
  predicate IsSpecial(c: char) {
    c == '\\' || c == '\''
  }

  /** How many characters of `s` get a backslash. */
  function SpecialCount(s: string): nat {
    if s == [] then 0 else (if IsSpecial(s[0]) then 1 else 0) + SpecialCount(s[1..])
  }

  /** `escape_command`: a backslash before every backslash and single quote,
      every other character copied. */
  function Escape(s: string): (r: string)
    ensures |r| == |s| + SpecialCount(s)
    ensures |r| >= |s|
  {
    if s == [] then []
    else if IsSpecial(s[0]) then ['\\', s[0]] + Escape(s[1..])
    else [s[0]] + Escape(s[1..])
  }

  /** The inverse of `Escape`: drops the backslash before each escaped
      character; fails on a lone backslash or an unescaped quote, which
      `Escape` never produces. */
  function Unescape(t: string): (r: Option<string>)
    decreases |t|
  {
    if t == [] then Some([])
    else if t[0] == '\\' then
      if |t| >= 2 && IsSpecial(t[1]) then
        match Unescape(t[2..])
        case Some(rest) => Some([t[1]] + rest)
        case None => None
      else None
    else if t[0] == '\'' then None
    else
      match Unescape(t[1..])
      case Some(rest) => Some([t[0]] + rest)
      case None => None
  }

  /** Escaping commutes with concatenation: each character is escaped on its
      own. */
  lemma {:induction false} EscapeAppend(a: string, b: string)
    ensures Escape(a + b) == Escape(a) + Escape(b)
  {
    if a == [] {
      assert a + b == b;
    } else {
      assert (a + b)[0] == a[0];
      assert (a + b)[1..] == a[1..] + b;
      EscapeAppend(a[1..], b);
    }
  }

  /** Unescaping an escaped command recovers it. */
  lemma {:induction false} UnescapeEscape(s: string)
    ensures Unescape(Escape(s)) == Some(s)
  {
    if s != [] {
      UnescapeEscape(s[1..]);
      var t := Escape(s);
      if IsSpecial(s[0]) {
        assert t[2..] == Escape(s[1..]);
      } else {
        assert t[1..] == Escape(s[1..]);
      }
      assert s == [s[0]] + s[1..];
    }
  }

  /** Whatever unescapes was produced by `Escape`: the escaped texts are
      exactly the ones `Unescape` accepts. */
  lemma {:induction false} EscapeUnescape(t: string, s: string)
    requires Unescape(t) == Some(s)
    ensures Escape(s) == t
    decreases |t|
  {
    if t != [] {
      if t[0] == '\\' {
        var rest := Unescape(t[2..]).value;
        EscapeUnescape(t[2..], rest);
        assert s == [t[1]] + rest;
        assert s[1..] == rest;
        assert t == ['\\', t[1]] + t[2..];
      } else {
        var rest := Unescape(t[1..]).value;
        EscapeUnescape(t[1..], rest);
        assert s == [t[0]] + rest;
        assert s[1..] == rest;
        assert t == [t[0]] + t[1..];
      }
    }
  }

  /** Two commands with the same escaping are the same command. */
  lemma EscapeInjective(a: string, b: string)
    requires Escape(a) == Escape(b)
    ensures a == b
  {
    UnescapeEscape(a);
    UnescapeEscape(b);
  }

  /** In an escaped command every single quote has a backslash right before
      it, so it cannot close the quoted field of the crontab line. */
  lemma {:induction false} EscapedQuotesArePrefixed(s: string)
    ensures forall j :: 0 <= j < |Escape(s)| && Escape(s)[j] == '\'' ==> j > 0 && Escape(s)[j - 1] == '\\'
  {
    if s != [] {
      EscapedQuotesArePrefixed(s[1..]);
      var t := Escape(s);
      var t' := Escape(s[1..]);
      var w := if IsSpecial(s[0]) then 2 else 1;
      assert t == t[..w] + t';
      assert forall j :: w <= j < |t| ==> t[j] == t'[j - w];
    }
  }

  /** Escaping neither adds nor removes line feeds. */
  lemma {:induction false} EscapeNoNewline(s: string)
    requires NoNewline(s)
    ensures NoNewline(Escape(s))
  {
    if s != [] {
      assert NoNewline(s[1..]) by { assert forall j :: 0 <= j < |s[1..]| ==> s[1..][j] == s[j + 1]; }
      EscapeNoNewline(s[1..]);
    }
  }

  /** The fixed text between the schedule and the escaped command. */
  const Marker: string := " root minicron run '"

  /** `build_minicron_command`: `<schedule> root minicron run '<escaped>'`. */
  function BuildLine(command: string, schedule: string): (line: string)
    ensures |line| == |schedule| + |Marker| + |Escape(command)| + 1
    ensures line[..|schedule|] == schedule
    ensures line[|line| - 1] == '\''
  {
    schedule + Marker + Escape(command) + "'"
  }

  /** Reads back the command of a line built for `schedule`; `None` when the
      line does not have that shape. */
  function ParseLine(line: string, schedule: string): (r: Option<string>)
  {
    var head := schedule + Marker;
    if |line| < |head| + 1 || line[..|head|] != head || line[|line| - 1] != '\'' then None
    else Unescape(line[|head|..|line| - 1])
  }

  /** The command is recovered from its line. */
  lemma ParseBuildLine(command: string, schedule: string)
    ensures ParseLine(BuildLine(command, schedule), schedule) == Some(command)
  {
    var line := BuildLine(command, schedule);
    var head := schedule + Marker;
    assert line == head + Escape(command) + "'";
    assert line[..|head|] == head;
    assert line[|head|..|line| - 1] == Escape(command);
    UnescapeEscape(command);
  }

  /** `ParseLine` accepts exactly the lines `BuildLine` produces for that
      schedule. */
  lemma BuildParseLine(line: string, schedule: string, command: string)
    requires ParseLine(line, schedule) == Some(command)
    ensures BuildLine(command, schedule) == line
  {
    var head := schedule + Marker;
    EscapeUnescape(line[|head|..|line| - 1], command);
    SplitThree(line, |head|, |line| - 1);
    assert line[|line| - 1..] == "'";
    Regroup(schedule, Marker, Escape(command), "'");
  }

  /** One schedule, two commands: different commands give different lines. */
  lemma BuildLineInjectiveInCommand(c1: string, c2: string, schedule: string)
    requires BuildLine(c1, schedule) == BuildLine(c2, schedule)
    ensures c1 == c2
  {
    ParseBuildLine(c1, schedule);
    ParseBuildLine(c2, schedule);
  }

  /** One command, two schedules: different schedules give different lines,
      so an update never looks for the text it writes unless the schedule is
      unchanged. */
  lemma BuildLineInjectiveInSchedule(command: string, s1: string, s2: string)
    requires BuildLine(command, s1) == BuildLine(command, s2)
    ensures s1 == s2
  {
    var l := BuildLine(command, s1);
    assert |s1| == |s2|;
    assert s1 == l[..|s1|] == s2;
  }

  /** A line always has a visible character (the `r` of `root`) and is never
      empty; this is what makes the `grep` checks meaningful. */
  lemma BuildLineVisible(command: string, schedule: string)
    ensures HasVisible(BuildLine(command, schedule))
  {
    var l := BuildLine(command, schedule);
    assert l[|schedule| + 1] == Marker[1] == 'r';
  }

  /** A line built from newline-free inputs is a single line of the file. */
  lemma BuildLineNoNewline(command: string, schedule: string)
    requires NoNewline(command) && NoNewline(schedule)
    ensures NoNewline(BuildLine(command, schedule))
  {
    EscapeNoNewline(command);
    var l := BuildLine(command, schedule);
    var e := Escape(command);
    assert l == schedule + Marker + e + "'";
    assert forall j :: 0 <= j < |l| ==> l[j] != '\n' by {
      forall j | 0 <= j < |l| ensures l[j] != '\n' {
        if j < |schedule| { assert l[j] == schedule[j]; }
        else if j < |schedule| + |Marker| { assert l[j] == Marker[j - |schedule|]; }
        else if j < |schedule| + |Marker| + |e| { assert l[j] == e[j - |schedule| - |Marker|]; }
      }
    }
  }

  /** A line whose schedule does not start with whitespace is left alone by
      `strip`, so the `tail` check can match it. */
  lemma BuildLineBare(command: string, schedule: string)
    requires schedule != [] && !IsSpace(schedule[0])
    ensures Bare(BuildLine(command, schedule))
    ensures Strip(BuildLine(command, schedule)) == BuildLine(command, schedule)
  {
    var l := BuildLine(command, schedule);
    assert l[0] == schedule[0];
    StripFrame([], l, []);
    assert [] + l + [] == l;
  }
}

=== FILE: remote_file.dfy ===
/** The host side of the protocol: the live crontab and its staging copy,
    the remote commands, and the read-only commands (`grep -F`, `tail -n 1`)
    as line-based functions of the files. What a write command did is not
    computed here: the environment chooses it (`WriteOutcome`,
    `MoveOutcome`), so every guarantee proved about the protocol holds
    whatever the remote actually did. */
module RemoteFile {
  import opened Wrappers
  import opened Text

  /** `/etc/crontab` and `/etc/crontab.tmp` (`None` while it does not exist). */
  datatype Remote = Remote(live: string, tmp: Option<string>)

  /** The remote commands of `lib/minicron/cron.rb`, recorded in the order
      they are issued. */
  datatype Command =
    | ReadLive                  // cat /etc/crontab
    | StageTmp(content: string) // echo <content> > /etc/crontab.tmp && echo 'y' || echo 'n'
    | GrepTmp(pattern: string)  // grep -F "<pattern>" /etc/crontab.tmp
    | MoveTmp                   // mv /etc/crontab.tmp /etc/crontab && echo 'y' || echo 'n'
    | AppendLive(line: string)  // echo "<line>" >> /etc/crontab && echo 'y' || echo 'n'
    | TailLive                  // tail -n 1 /etc/crontab

  /** The error kinds the Ruby code raises as plain `Exception`s. */
  datatype CronError =
    | NotFoundError      // `find` absent from the crontab (line 50)
    | WriteError         // staging the new crontab not confirmed (lines 59-61)
    | VerificationError  // grep or tail saw something else (lines 69-71, 77-79, 115-117)
    | CommitError        // renaming the staged crontab not confirmed (lines 85-87)
    | AppendError        // appending the line not confirmed (lines 107-109)

  /** What one protocol run returns, where the host ended up, and which
      commands it issued. */
  datatype Run = Run(result: Result<(), CronError>, remote: Remote, trace: seq<Command>)

  /** A write command as it happened on the host: the stdout that came back
      (where `&& echo 'y' || echo 'n'` puts its sentinel) and the text that
      actually reached the file, `None` if nothing did. */
  datatype WriteOutcome = WriteOutcome(echo: string, landed: Option<string>)

  /** The `mv` command as it happened: its stdout and whether the rename took
      place. */
  datatype MoveOutcome = MoveOutcome(echo: string, moved: bool)

  /** What `echo 'y'` prints. */
  const Yes: string := "y\n"

  /** The code accepts a write only when its stripped stdout is `y`. */
  predicate Confirmed(echo: string) {
    Strip(echo) == "y"
  }

  /** `echo 'y'` is what the code accepts. */
  lemma YesIsConfirmed()
    ensures Confirmed(Yes)
  {
    StripFrame([], "y", "\n");
    assert [] + "y" + "\n" == Yes;
  }

  /** A write that did what was asked and said so. */
  predicate Faithful(w: WriteOutcome, intended: string) {
    w.echo == Yes && w.landed == Some(intended)
  }

  /** `echo ... > /etc/crontab.tmp`: whatever landed replaces the staging
      copy; the live crontab is not touched. */
  function WriteTmp(s: Remote, w: WriteOutcome): (s': Remote)
    ensures s'.live == s.live
    ensures w.landed.Some? ==> s'.tmp == w.landed
    ensures w.landed.None? ==> s' == s
  {
    if w.landed.Some? then s.(tmp := w.landed) else s
  }

  /** `mv /etc/crontab.tmp /etc/crontab`: when the rename happens and the
      staging copy exists, it becomes the live crontab and disappears. */
  function Rename(s: Remote, m: MoveOutcome): (s': Remote)
    ensures s'.live == s.live || (s.tmp.Some? && s'.live == s.tmp.value)
    ensures m.moved && s.tmp.Some? ==> s' == Remote(s.tmp.value, None)
    ensures !m.moved ==> s' == s
  {
    if m.moved && s.tmp.Some? then Remote(s.tmp.value, None) else s
  }

  /** `echo "<line>" >> /etc/crontab`: whatever landed goes after the
      existing content. */
  function AppendToLive(s: Remote, w: WriteOutcome): (s': Remote)
    ensures s'.tmp == s.tmp
    ensures |s.live| <= |s'.live| && s'.live[..|s.live|] == s.live
    ensures w.landed.Some? ==> s'.live[|s.live|..] == w.landed.value
    ensures w.landed.None? ==> s' == s
  {
    match w.landed
    case Some(text) => s.(live := s.live + text)
    case None => s
  }

  /** The lines `grep -F` selects: those containing `pattern`, in file order. */
  function Matches(ls: seq<string>, pattern: string): (ms: seq<string>)
    ensures |ms| <= |ls|
    ensures forall l :: l in ms <==> l in ls && Contains(l, pattern)
    // each selected line is printed as often as it occurs in the file
    ensures forall l :: multiset(ms)[l] == if Contains(l, pattern) then multiset(ls)[l] else 0
  {
    assert ls != [] ==> ls == [ls[0]] + ls[1..];
    if ls == [] then []
    else if Contains(ls[0], pattern) then [ls[0]] + Matches(ls[1..], pattern)
    else Matches(ls[1..], pattern)
  }

  /** What `grep` answers for a missing staging file (`exec!` returns stderr
      along with stdout). */
  const MissingTmp: string := "grep: /etc/crontab.tmp: No such file or directory"

  /** The output of `grep -F "<pattern>" /etc/crontab.tmp`. */
  function GrepOutput(tmp: Option<string>, pattern: string): (out: string)
    // read back line by line, the output is exactly the selected lines of the file
    ensures tmp.Some? ==> Lines(out) == Matches(Lines(tmp.value), pattern)
  {
    match tmp
    case None => MissingTmp + "\n"
    case Some(t) =>
      LinesOfJoined(Matches(Lines(t), pattern));
      Joined(Matches(Lines(t), pattern))
  }

  /** The output of `tail -n 1 /etc/crontab`, without its line feed (which
      the caller strips anyway). */
  function TailOutput(t: string): (last: string)
    ensures NoNewline(last)
    // the file's lines are those before it and then it
    ensures Lines(t) != [] ==> Lines(t) == Lines(t)[..|Lines(t)| - 1] + [last]
    ensures Lines(t) == [] ==> last == []
  {
    var ls := Lines(t);
    assert ls != [] ==> ls == ls[..|ls| - 1] + [ls[|ls| - 1]];
    if ls == [] then [] else ls[|ls| - 1]
  }

  /** A text containing a pattern with a visible character has one too. */
  lemma ContainsVisible(l: string, p: string) returns (a: nat)
    requires Contains(l, p) && HasVisible(p)
    ensures a < |l| && !IsSpace(l[a])
  {
    var i: nat :| i <= |l| - |p| && OccursAt(l, p, i);
    var j :| 0 <= j < |p| && !IsSpace(p[j]);
    assert l[i..i + |p|][j] == l[i + j];
    a := i + j;
  }

  /** Joined lines keep every character of every line. */
  lemma {:induction false} JoinedKeeps(ms: seq<string>, k: nat, a: nat) returns (at: nat)
    requires k < |ms| && a < |ms[k]|
    ensures at < |Joined(ms)| && Joined(ms)[at] == ms[k][a]
  {
    var rest := Joined(ms[1..]);
    assert Joined(ms) == ms[0] + "\n" + rest;
    if k == 0 {
      at := a;
    } else {
      var at' := JoinedKeeps(ms[1..], k - 1, a);
      at := |ms[0]| + 1 + at';
    }
  }

  /** When no line contains the pattern, `grep` selects nothing. */
  lemma {:induction false} MatchesNone(ls: seq<string>, p: string)
    requires forall l <- ls :: !Contains(l, p)
    ensures Matches(ls, p) == []
  {
    if ls != [] {
      MatchesNone(ls[1..], p);
    }
  }

  /** `grep` printing nothing visible, for a pattern with a visible
      character, means no line of the file contains it, and conversely. */
  lemma GrepBlankIff(ls: seq<string>, p: string)
    requires HasVisible(p)
    ensures Strip(Joined(Matches(ls, p))) == [] <==> forall l <- ls :: !Contains(l, p)
  {
    var ms := Matches(ls, p);
    if exists l <- ls :: Contains(l, p) {
      var l :| l in ls && Contains(l, p);
      assert l in ms;
      var k :| 0 <= k < |ms| && ms[k] == l;
      var a := ContainsVisible(l, p);
      var at := JoinedKeeps(ms, k, a);
      assert !AllSpace(Joined(ms));
    } else {
      MatchesNone(ls, p);
    }
  }

  /** `grep` printing exactly a newline-free pattern with a visible
      character means exactly one line was selected and that line, stripped,
      is the pattern; and conversely. */
  lemma GrepExactIff(ls: seq<string>, p: string)
    requires HasVisible(p) && NoNewline(p)
    ensures Strip(Joined(Matches(ls, p))) == p <==>
            |Matches(ls, p)| == 1 && Strip(Matches(ls, p)[0]) == p
  {
    var ms := Matches(ls, p);
    var out := Joined(ms);
    if |ms| == 0 {
      assert Strip(out) == [];
      assert p != [];
    } else if |ms| == 1 {
      assert ms[1..] == [];
      assert Joined(ms[1..]) == [];
      assert out == ms[0] + "\n" + [];
      assert AllSpace("\n");
      StripIgnoresSpaceSuffix(ms[0], "\n");
      assert out == ms[0] + "\n";
    } else {
      assert ms[0] in ms && ms[1] in ms;
      var a := ContainsVisible(ms[0], p);
      var b := ContainsVisible(ms[1], p);
      var rest := Joined(ms[2..]);
      assert Joined(ms[1..]) == ms[1] + "\n" + rest;
      assert out == ms[0] + "\n" + (ms[1] + "\n" + rest);
      var k := |ms[0]|;
      var c := k + 1 + b;
      assert out[a] == ms[0][a];
      assert out[c] == ms[1][b];
      assert out[k] == '\n';
      StripKeepsInterior(out, a, k, c);
      assert '\n' in Strip(out);
      assert Strip(out) != p;
    }
  }

  /** After a line and a line feed go onto a file that is empty or ends in a
      line feed, the file has that one line more and the earlier lines are
      unchanged. */
  lemma LinesAfterAppend(a: string, l: string)
    requires a == [] || a[|a| - 1] == '\n'
    requires NoNewline(l)
    ensures Lines(a + (l + "\n")) == Lines(a) + [l]
  {
    var t := l + "\n";
    LinesCons(l, []);
    assert l + "\n" + [] == t;
    assert Lines(t) == [l];
    LinesOfAppend(a, t);
  }

  /** After such an append, `tail -n 1` answers the appended line. */
  lemma TailAfterAppend(a: string, l: string)
    requires a == [] || a[|a| - 1] == '\n'
    requires NoNewline(l)
    ensures TailOutput(a + (l + "\n")) == l
  {
    LinesAfterAppend(a, l);
  }
}

=== FILE: scenarios.dfy ===
/** Concrete runs of the crontab operations against a host that does what it
    is told, and the input on which matching `find` as a substring (as
    `String#[]=` does) goes wrong while matching it as a whole line does
    not. */
module Scenarios {
  import opened Wrappers
  import opened Text
  import opened LineCodec
  import opened Edit
  import opened RemoteFile
  import opened CrontabMutator
  import opened Schedules

  /** What a host that does what it is told answers when `find_and_replace`
      stages `edited`: the write lands with the line feed `echo` adds, and
      the rename happens. */
  function FaithfulEnv(edited: string): ReplaceEnv {
    ReplaceEnv(WriteOutcome(Yes, Some(edited + "\n")), MoveOutcome(Yes, true))
  }

  /** `strip` drops the final line feed of a one-line crontab whose line has
      visible characters at both ends. */
  lemma StripOneLine(l: string)
    requires Bare(l)
    ensures Strip(l + "\n") == l
  {
    StripFrame([], l, "\n");
    assert [] + l + "\n" == l + "\n";
  }

  /** A one-line file is its line. */
  lemma LinesOneLine(l: string)
    requires NoNewline(l)
    ensures Lines(l + "\n") == [l]
  {
    LinesCons(l, []);
    assert l + "\n" + [] == l + "\n";
  }

  /** A job line for a schedule with no line feed and no leading
      whitespace, and a command with no line feed, is a complete line that
      `strip` leaves alone. */
  lemma PlainLine(command: string, schedule: string)
    requires NoNewline(command) && NoNewline(schedule)
    requires schedule != [] && !IsSpace(schedule[0])
    ensures var l := BuildLine(command, schedule);
      NoNewline(l) && Bare(l) && Strip(l + "\n") == l && Lines(l + "\n") == [l]
  {
    var l := BuildLine(command, schedule);
    BuildLineNoNewline(command, schedule);
    BuildLineBare(command, schedule);
    StripOneLine(l);
    LinesOneLine(l);
  }

  /** Replacing all of `x` leaves just the replacement. */
  lemma WholeReplaced<T>(x: seq<T>, y: seq<T>)
    ensures x[..0] + y + x[|x|..] == y
  {
  }

  /** The commands and schedules of these runs are single lines. */
  lemma LiteralsAreLines()
    ensures NoNewline("echo hi") && NoNewline("backup.sh") && NoNewline("x")
    ensures NoNewline("* * * * *") && NoNewline("0 * * * *") && NoNewline("0 3 * * *")
    ensures NoNewline("*/5 * * * *") && NoNewline("*/")
  {
  }

  /** A crontab that is just the job's line: the edit finds that line and
      leaves only the replacement. */
  lemma EditWholeFile(mode: Matching, command: string, schedule: string, replace: string)
    requires NoNewline(command) && NoNewline(schedule)
    requires schedule != [] && !IsSpace(schedule[0])
    ensures var find := BuildLine(command, schedule);
      Edited(mode, find + "\n", find, replace) == Ok(replace)
  {
    var find := BuildLine(command, schedule);
    PlainLine(command, schedule);
    assert OccursAt(find, find, 0);
    assert FirstMatchAt(mode, find, find, 0);
    ReplaceKeepsSurroundings(mode, find, find, replace, 0);
    WholeReplaced(find, replace);
  }

  /** A staged crontab that is just the new line passes the update check. */
  lemma CheckWholeFile(find: string, command: string, schedule: string)
    requires NoNewline(command) && NoNewline(schedule)
    requires schedule != [] && !IsSpace(schedule[0])
    ensures var replace := BuildLine(command, schedule);
      Verified(Some(replace + "\n"), find, replace)
  {
    var replace := BuildLine(command, schedule);
    PlainLine(command, schedule);
    assert OccursAt(replace, replace, 0);
    assert Matches([replace], replace) == [replace];
    assert Joined([replace]) == replace + "\n";
  }

  /** On a crontab that holds just the job's line, a faithful host moves
      the job to the new schedule: the crontab becomes the new line. */
  lemma UpdateWholeFile(mode: Matching, command: string, oldSchedule: string, newSchedule: string)
    requires NoNewline(command) && NoNewline(oldSchedule) && NoNewline(newSchedule)
    requires oldSchedule != [] && !IsSpace(oldSchedule[0])
    requires newSchedule != [] && !IsSpace(newSchedule[0])
    ensures var s := Remote(BuildLine(command, oldSchedule) + "\n", None);
      var line := BuildLine(command, newSchedule);
      var r := UpdateSchedule(mode, s, FaithfulEnv(line), Job(command, [oldSchedule]), oldSchedule, newSchedule);
      r.result.Ok? && r.remote == Remote(line + "\n", None)
  {
    var find := BuildLine(command, oldSchedule);
    var replace := BuildLine(command, newSchedule);
    var s := Remote(find + "\n", None);
    EditWholeFile(mode, command, oldSchedule, replace);
    CheckWholeFile(find, command, newSchedule);
    FaithfulHostCommits(mode, s, find, replace, replace);
  }

  /** Moving `echo hi` from every minute to the top of every hour. */
  lemma UpdateEveryMinuteToHourly(mode: Matching)
    ensures var s := Remote(BuildLine("echo hi", "* * * * *") + "\n", None);
      var hourly := BuildLine("echo hi", "0 * * * *");
      var r := UpdateSchedule(mode, s, FaithfulEnv(hourly), Job("echo hi", ["* * * * *"]), "* * * * *", "0 * * * *");
      r.result.Ok? && r.remote == Remote(hourly + "\n", None)
  {
    LiteralsAreLines();
    UpdateWholeFile(mode, "echo hi", "* * * * *", "0 * * * *");
  }

  /** Adding `backup.sh` at 03:00 to an empty crontab leaves exactly its
      line. */
  lemma AddBackupToEmpty()
    ensures var line := BuildLine("backup.sh", "0 3 * * *");
      var r := AddSchedule(Remote([], None), WriteOutcome(Yes, Some(line + "\n")), Job("backup.sh", []), "0 3 * * *");
      r.result.Ok? && r.remote.live == line + "\n"
  {
    LiteralsAreLines();
    FaithfulAdd(Remote([], None), Job("backup.sh", []), "0 3 * * *");
    assert [] + BuildLine("backup.sh", "0 3 * * *") == BuildLine("backup.sh", "0 3 * * *");
  }

  // The substring match. The crontab holds the line of job `x` every five
  // minutes; the schedule "5 * * * *" of the same job has no line. Deleting
  // that schedule finds its line as a substring of the other one.

  /** The line of `x` every five minutes. */
  function Other(): string {
    BuildLine("x", "*/5 * * * *")
  }

  /** The line of `x` at minute five, which is not in the crontab. */
  function Gone(): string {
    BuildLine("x", "5 * * * *")
  }

  /** Text in front of a schedule ends up in front of the whole line. */
  lemma BuildLineShift(command: string, front: string, schedule: string)
    ensures BuildLine(command, front + schedule) == front + BuildLine(command, schedule)
  {
    Shift(front, schedule, Marker, Escape(command), "'");
  }

  lemma Shift<T>(a: seq<T>, b: seq<T>, m: seq<T>, e: seq<T>, q: seq<T>)
    ensures a + b + m + e + q == a + (b + m + e + q)
  {
  }

  /** When no character of `pre` starts `line`, the first occurrence of
      `line` in `pre + line` is right after `pre`. */
  lemma FirstMatchPastPrefix(pre: string, line: string)
    requires line != []
    requires forall j :: 0 <= j < |pre| ==> pre[j] != line[0]
    ensures FirstMatchAt(Substring, pre + line, line, |pre|)
  {
    SliceRight(pre, line, |pre|, |pre| + |line|);
    assert line[|pre| - |pre|..|pre| + |line| - |pre|] == line;
    forall j: nat | j < |pre| ensures !MatchAt(Substring, pre + line, line, j) {
      assert (pre + line)[j] == pre[j] != line[0];
    }
  }

  /** The line that is meant to go is inside the other line, two characters
      in, and nowhere earlier. */
  lemma GoneInsideOther()
    ensures Other() == "*/" + Gone()
    ensures FirstMatchAt(Substring, Other(), Gone(), 2)
  {
    var gone := "5 * * * *";
    assert "*/5 * * * *" == "*/" + gone;
    BuildLineShift("x", "*/", gone);
    assert BuildLine("x", gone)[0] == gone[0] == '5' by {
      BuildLineStart("x", gone);
    }
    FirstMatchPastPrefix("*/", BuildLine("x", gone));
  }

  /** A job line starts with the first character of its schedule. */
  lemma BuildLineStart(command: string, schedule: string)
    requires schedule != []
    ensures BuildLine(command, schedule)[0] == schedule[0]
  {
    assert BuildLine(command, schedule)[..|schedule|][0] == schedule[0];
  }

  /** As written, in general: when the line to delete is not in a one-line
      crontab but ends it, the delete removes it from inside the other line
      and keeps the rest, and the check passes. */
  lemma SubstringDeleteKeepsFront(pre: string, command: string, schedule: string)
    requires NoNewline(command) && NoNewline(schedule) && NoNewline(pre)
    requires schedule != [] && !IsSpace(schedule[0])
    requires pre != [] && !IsSpace(pre[0])
    requires FirstMatchAt(Substring, pre + BuildLine(command, schedule), BuildLine(command, schedule), |pre|)
    ensures var s := Remote(pre + BuildLine(command, schedule) + "\n", None);
      var r := DeleteSchedule(Substring, s, FaithfulEnv(pre), command, schedule);
      r.result.Ok? && r.remote.live == pre + "\n"
  {
    var line := BuildLine(command, schedule);
    assert Bare(pre + line) by {
      BuildLineBare(command, schedule);
      assert (pre + line)[|pre + line| - 1] == line[|line| - 1];
    }
    CutTailEdit(pre, line);
    CutTailCheck(pre, line);
    FaithfulHostCommits(Substring, Remote(pre + line + "\n", None), line, [], pre);
  }

  /** Deleting a match that ends a one-line crontab leaves what precedes it. */
  lemma CutTailEdit(pre: string, line: string)
    requires Bare(pre + line)
    requires FirstMatchAt(Substring, pre + line, line, |pre|)
    ensures Edited(Substring, pre + line + "\n", line, []) == Ok(pre)
  {
    var c := pre + line;
    StripOneLine(c);
    ReplaceKeepsSurroundings(Substring, c, line, [], |pre|);
    SliceLeft(pre, line, 0, |pre|);
    assert c[..|pre|] == c[0..|pre|] == pre[0..|pre|] == pre;
    assert c[|pre| + |line|..] == [];
    assert pre + [] + [] == pre;
  }

  /** What precedes the first match holds no match, so `grep` finds nothing
      in it. */
  lemma CutTailCheck(pre: string, line: string)
    requires NoNewline(pre) && line != []
    requires FirstMatchAt(Substring, pre + line, line, |pre|)
    ensures Verified(Some(pre + "\n"), line, [])
  {
    LinesOneLine(pre);
    assert !Contains(pre, line) by {
      forall i: nat | i <= |pre| - |line| ensures !OccursAt(pre, line, i) {
        assert i < |pre|;
        SliceLeft(pre, line, i, i + |line|);
        assert !MatchAt(Substring, pre + line, line, i);
      }
    }
    assert Matches([pre], line) == [];
  }

  /** Corrected, in general: with whole-line matching, the line is not found
      in a one-line crontab that is not that line, and nothing changes. */
  lemma WholeLineDeleteRefusesSuffix(pre: string, command: string, schedule: string, env: ReplaceEnv)
    requires NoNewline(command) && NoNewline(schedule) && NoNewline(pre)
    requires schedule != [] && !IsSpace(schedule[0])
    requires pre != [] && !IsSpace(pre[0])
    ensures var s := Remote(pre + BuildLine(command, schedule) + "\n", None);
      var r := DeleteSchedule(WholeLine, s, env, command, schedule);
      r.result == Err(NotFoundError) && r.remote == s
  {
    var line := BuildLine(command, schedule);
    var c := pre + line;
    assert Strip(c + "\n") == c && NoNewline(c) by {
      BuildLineNoNewline(command, schedule);
      assert c[|c| - 1] == line[|line| - 1];
      StripOneLine(c);
    }
    NoWholeLineInLongerLine(c, line);
  }

  /** A line feed-free text holds no shorter text as a whole line. */
  lemma NoWholeLineInLongerLine(c: string, line: string)
    requires NoNewline(c) && |line| < |c|
    ensures forall i: nat :: !MatchAt(WholeLine, c, line, i)
  {
    forall i: nat ensures !MatchAt(WholeLine, c, line, i) {
      if i == 0 {
        assert c[|line|] in c;
      } else if i <= |c| {
        assert c[i - 1] in c;
      }
    }
  }

  /** As written: the delete of the absent schedule "5 * * * *" succeeds,
      and what remains of the crontab is the two characters in front of the
      match. The `grep` check passes because the deleted text is indeed
      gone. */
  lemma SubstringDeleteCorruptsOtherLine()
    ensures var r := DeleteSchedule(Substring, Remote(Other() + "\n", None), FaithfulEnv("*/"), "x", "5 * * * *");
      r.result.Ok? && r.remote.live == "*/\n"
  {
    LiteralsAreLines();
    GoneInsideOther();
    SubstringDeleteKeepsFront("*/", "x", "5 * * * *");
  }

  /** Corrected: with whole-line matching the schedule is not found, and the
      crontab is left as it was. */
  lemma WholeLineDeleteRefuses(env: ReplaceEnv)
    ensures var s := Remote(Other() + "\n", None);
      var r := DeleteSchedule(WholeLine, s, env, "x", "5 * * * *");
      r.result == Err(NotFoundError) && r.remote == s
  {
    LiteralsAreLines();
    GoneInsideOther();
    WholeLineDeleteRefusesSuffix("*/", "x", "5 * * * *", env);
  }

  /** The two modes also differ on a job line that has trailing whitespace
      (a blank, or the carriage return of a CRLF file) and is not the last
      line: the substring match still finds the job line, while no line of
      the crontab is exactly the job line. */
  lemma TrailingBlankModesDiffer(l: string, y: string)
    requires NoNewline(l) && NoNewline(y) && l != [] && |y| < |l|
    ensures Replace(Substring, l + " \n" + y, l, []).Ok?
    ensures Replace(WholeLine, l + " \n" + y, l, []).Err?
  {
    var c := l + " \n" + y;
    assert c == l + (" \n" + y);
    SliceLeft(l, " \n" + y, 0, |l|);
    assert MatchAt(Substring, c, l, 0);
    var h := l + " ";
    assert NoNewline(h) by {
      assert forall j :: 0 <= j < |h| ==> h[j] == (if j < |l| then l[j] else ' ');
    }
    assert c == h + "\n" + y;
    LinesCons(h, y);
    if y != [] {
      SingleLine(y);
    }
    assert l !in Lines(c);
    WholeLineNotFoundIff(c, l, []);
  }
}

=== FILE: schedules.dfy ===
/** The single-schedule operations of `Minicron::Cron`
    (`lib/minicron/cron.rb` lines 90-154): add, update and delete one
    schedule of a job. */
module Schedules {
  import opened Wrappers
  import opened Text
  import opened LineCodec
  import opened Edit
  import opened RemoteFile
  import opened CrontabMutator

  /** A job as the scheduling application supplies it: its shell command and
      its schedules' cron expressions (`Schedule#formatted`), in order. */
  datatype Job = Job(command: string, schedules: seq<string>)

  /** The control flow of lines 104-117 once the append has happened: an
      unconfirmed append fails at once, otherwise `tail` decides. */
  function AddProtocol(appended: Remote, line: string, confirmed: bool, tailMatches: bool): (r: Run)
    ensures r.remote == appended
    ensures !confirmed ==> r.result == Err(AppendError) && r.trace == [AppendLive(line)]
    ensures confirmed && !tailMatches ==> r.result == Err(VerificationError)
    ensures r.result.Ok? <==> confirmed && tailMatches
    ensures confirmed ==> r.trace == [AppendLive(line), TailLive]
  {
    if !confirmed then
      Run(Err(AppendError), appended, [AppendLive(line)])
    else if !tailMatches then
      Run(Err(VerificationError), appended, [AppendLive(line), TailLive])
    else
      Run(Ok(()), appended, [AppendLive(line), TailLive])
  }

  /** `add_schedule` (lines 95-118): append the job's line, then check that
      the last line of the crontab is that line. */
  function AddSchedule(s: Remote, w: WriteOutcome, job: Job, schedule: string): (r: Run)
    // the append is the only change: the staging file is untouched and the old content stays in front
    ensures r.remote.tmp == s.tmp
    ensures |s.live| <= |r.remote.live| && r.remote.live[..|s.live|] == s.live
    // what landed is appended, and nothing changes when nothing landed
    ensures w.landed.Some? ==> r.remote.live == s.live + w.landed.value
    ensures w.landed.None? ==> r.remote == s
    // an unconfirmed append fails at once, without the tail check
    ensures !Confirmed(w.echo) ==> r.result == Err(AppendError) && r.trace == [AppendLive(BuildLine(job.command, schedule))]
    // success exactly when the append was confirmed and the last line, stripped, is the built line
    ensures r.result.Ok? <==>
      Confirmed(w.echo) && Strip(TailOutput(r.remote.live)) == BuildLine(job.command, schedule)
    ensures r.result.Ok? ==> r.trace == [AppendLive(BuildLine(job.command, schedule)), TailLive]
    // a confirmed append whose last line is something else fails the check
    ensures Confirmed(w.echo) && Strip(TailOutput(r.remote.live)) != BuildLine(job.command, schedule) ==>
      r.result == Err(VerificationError) && r.trace == [AppendLive(BuildLine(job.command, schedule)), TailLive]
  {
    var line := BuildLine(job.command, schedule);
    var appended := AppendToLive(s, w);
    AddProtocol(appended, line, Confirmed(w.echo), Strip(TailOutput(appended.live)) == line)
  }

  /** With a host that appends exactly the line and a line feed, onto a
      crontab that is empty or ends in a line feed, the add succeeds and the
      crontab is the old one followed by that line. */
  lemma FaithfulAdd(s: Remote, job: Job, schedule: string)
    requires s.live == [] || s.live[|s.live| - 1] == '\n'
    requires NoNewline(job.command) && NoNewline(schedule)
    requires schedule != [] && !IsSpace(schedule[0])
    ensures var line := BuildLine(job.command, schedule);
      var r := AddSchedule(s, WriteOutcome(Yes, Some(line + "\n")), job, schedule);
      r.result.Ok? && r.remote.live == s.live + line + "\n"
  {
    var line := BuildLine(job.command, schedule);
    var w := WriteOutcome(Yes, Some(line + "\n"));
    var t := AppendToLive(s, w).live;
    assert t == s.live + (line + "\n");
    assert Confirmed(w.echo) by {
      YesIsConfirmed();
    }
    assert Strip(TailOutput(t)) == line by {
      BuildLineNoNewline(job.command, schedule);
      BuildLineBare(job.command, schedule);
      TailAfterAppend(s.live, line);
    }
    assert t == s.live + line + "\n" by {
      Regroup(s.live, line, [], "\n");
    }
  }

  /** In that case the crontab gains exactly one line, the job's, at the
      end. */
  lemma FaithfulAddAppendsOneLine(s: Remote, job: Job, schedule: string)
    requires s.live == [] || s.live[|s.live| - 1] == '\n'
    requires NoNewline(job.command) && NoNewline(schedule)
    requires schedule != [] && !IsSpace(schedule[0])
    ensures var line := BuildLine(job.command, schedule);
      var r := AddSchedule(s, WriteOutcome(Yes, Some(line + "\n")), job, schedule);
      Lines(r.remote.live) == Lines(s.live) + [line]
  {
    var line := BuildLine(job.command, schedule);
    FaithfulAdd(s, job, schedule);
    BuildLineNoNewline(job.command, schedule);
    LinesAfterAppend(s.live, line);
    Regroup(s.live, line, [], "\n");
  }

  /** `update_schedule` (lines 126-138): replace the line built with the old
      schedule by the line built with the new one. */
  function UpdateSchedule(mode: Matching, s: Remote, env: ReplaceEnv, job: Job, oldSchedule: string, newSchedule: string): (r: Run)
    // always the update branch of the check: grep looks for the new line
    ensures |r.trace| >= 3 ==> r.trace[2] == GrepTmp(BuildLine(job.command, newSchedule))
    ensures r.result == Err(NotFoundError) <==> Edited(mode, s.live, BuildLine(job.command, oldSchedule), BuildLine(job.command, newSchedule)).Err?
  {
    var find := BuildLine(job.command, oldSchedule);
    var replace := BuildLine(job.command, newSchedule);
    assert |replace| > 0;
    FindAndReplace(mode, s, env, find, replace)
  }

  /** `delete_schedule` (lines 145-154): replace the schedule's line by
      nothing. */
  function DeleteSchedule(mode: Matching, s: Remote, env: ReplaceEnv, command: string, schedule: string): (r: Run)
    // always the delete branch of the check: grep looks for the removed line
    ensures |r.trace| >= 3 ==> r.trace[2] == GrepTmp(BuildLine(command, schedule))
    ensures r.result == Err(NotFoundError) <==> Edited(mode, s.live, BuildLine(command, schedule), []).Err?
  {
    FindAndReplace(mode, s, env, BuildLine(command, schedule), [])
  }

  /** An update that changed the crontab left exactly one line containing
      the new line, and it is the new line up to surrounding whitespace. */
  lemma UpdateScheduleLeavesNewLine(mode: Matching, s: Remote, env: ReplaceEnv, job: Job, oldSchedule: string, newSchedule: string)
    requires NoNewline(job.command) && NoNewline(newSchedule)
    ensures var r := UpdateSchedule(mode, s, env, job, oldSchedule, newSchedule);
      var line := BuildLine(job.command, newSchedule);
      r.remote.live != s.live ==>
        |Matches(Lines(r.remote.live), line)| == 1 && Strip(Matches(Lines(r.remote.live), line)[0]) == line
  {
    BuildLineVisible(job.command, newSchedule);
    BuildLineNoNewline(job.command, newSchedule);
    UpdateLeavesOneLine(mode, s, env, BuildLine(job.command, oldSchedule), BuildLine(job.command, newSchedule));
  }

  /** A delete that changed the crontab removed every occurrence of the
      schedule's line. */
  lemma DeleteScheduleRemovesLine(mode: Matching, s: Remote, env: ReplaceEnv, command: string, schedule: string)
    requires NoNewline(command) && NoNewline(schedule)
    ensures var r := DeleteSchedule(mode, s, env, command, schedule);
      r.remote.live != s.live ==> !Contains(r.remote.live, BuildLine(command, schedule))
  {
    BuildLineVisible(command, schedule);
    BuildLineNoNewline(command, schedule);
    DeleteLeavesNoOccurrence(mode, s, env, BuildLine(command, schedule));
  }
}

=== FILE: text.dfy ===
/** Text primitives shared by the model: Ruby's `String#strip`, substring
    occurrence, and the split of a file into lines that `grep` and `tail`
    work on. */
module Text {

  /** The characters Ruby's `strip` removes: NUL, tab, line feed, vertical
      tab, form feed, carriage return and space. */
  predicate IsSpace(c: char) {
    c == ' ' || c == '\t' || c == '\n' || c == '\r' || c == '\0'
    || c == '\U{B}' || c == '\U{C}'
  }

  predicate AllSpace(s: string) {
    forall j :: 0 <= j < |s| ==> IsSpace(s[j])
  }

  /** Some character of `s` is not whitespace. */
  predicate HasVisible(s: string) {
    exists j :: 0 <= j < |s| && !IsSpace(s[j])
  }

  /** Neither end of `s` is whitespace: what `strip` leaves behind. */
  predicate Bare(s: string) {
    s == [] || (!IsSpace(s[0]) && !IsSpace(s[|s| - 1]))
  }

  /** Length of the run of whitespace `strip` removes at the front. */
  function LeadingSpaces(s: string): (n: nat)
    ensures n <= |s|
    ensures forall j :: 0 <= j < n ==> IsSpace(s[j])
    ensures n < |s| ==> !IsSpace(s[n])
  {
    if |s| > 0 && IsSpace(s[0]) then 1 + LeadingSpaces(s[1..]) else 0
  }

  /** Length of the run of whitespace `strip` removes at the back. */
  function TrailingSpaces(s: string): (n: nat)
    ensures n <= |s|
    ensures forall j :: |s| - n <= j < |s| ==> IsSpace(s[j])
    ensures n < |s| ==> !IsSpace(s[|s| - n - 1])
  {
    if |s| > 0 && IsSpace(s[|s| - 1]) then 1 + TrailingSpaces(s[..|s| - 1]) else 0
  }

  /** Ruby's `String#strip`: the text between the leading and the trailing
      whitespace. */
  function Strip(s: string): (r: string)
    ensures Bare(r)
    ensures r == [] <==> AllSpace(s)
    ensures LeadingSpaces(s) + |r| <= |s|
    ensures r == s[LeadingSpaces(s)..LeadingSpaces(s) + |r|]
    ensures forall j :: LeadingSpaces(s) + |r| <= j < |s| ==> IsSpace(s[j])
  {
    var lo := LeadingSpaces(s);
    if lo == |s| then []
    else s[lo..|s| - TrailingSpaces(s)]
  }

  /** Whatever whitespace surrounds a bare text, `strip` returns exactly it. */
  lemma StripFrame(a: string, m: string, b: string)
    requires AllSpace(a) && AllSpace(b) && Bare(m)
    ensures Strip(a + m + b) == m
  {
    var s := a + m + b;
    assert forall j :: 0 <= j < |a| ==> s[j] == a[j];
    assert forall j :: |a| + |m| <= j < |s| ==> s[j] == b[j - |a| - |m|];
    if m != [] {
      assert s[|a|] == m[0];
      assert s[|a| + |m| - 1] == m[|m| - 1];
      var n := LeadingSpaces(s);
      assert n == |a|;
      var r := Strip(s);
      assert r != [];
      assert r[|r| - 1] == s[|a| + |r| - 1];
      assert |r| == |m|;
      assert r == s[|a|..|a| + |m|] == m;
    }
  }

  /** Splits `s` into the whitespace `strip` removes and what it keeps. */
  lemma StripSplit(s: string)
    ensures AllSpace(s[..LeadingSpaces(s)])
    ensures AllSpace(s[LeadingSpaces(s) + |Strip(s)|..])
    ensures s == s[..LeadingSpaces(s)] + Strip(s) + s[LeadingSpaces(s) + |Strip(s)|..]
  {
    var lo := LeadingSpaces(s);
    var r := Strip(s);
    SplitThree(s, lo, lo + |r|);
  }

  lemma StripIdempotent(s: string)
    ensures Strip(Strip(s)) == Strip(s)
  {
    StripFrame([], Strip(s), []);
    assert [] + Strip(s) + [] == Strip(s);
  }

  /** Trailing whitespace added after a text does not change its strip. */
  lemma StripIgnoresSpaceSuffix(s: string, t: string)
    requires AllSpace(t)
    ensures Strip(s + t) == Strip(s)
  {
    var lo := LeadingSpaces(s);
    var r := Strip(s);
    StripSplit(s);
    var b := s[lo + |r|..];
    assert AllSpace(b + t) by {
      assert forall j :: 0 <= j < |b| ==> (b + t)[j] == b[j];
      assert forall j :: |b| <= j < |b + t| ==> (b + t)[j] == t[j - |b|];
    }
    assert s + t == s[..lo] + r + (b + t) by {
      Regroup(s[..lo], r, b, t);
    }
    StripFrame(s[..lo], r, b + t);
  }

  /** A character lying between two visible characters survives `strip`. */
  lemma StripKeepsInterior(s: string, a: nat, k: nat, c: nat)
    requires a <= k <= c < |s|
    requires !IsSpace(s[a]) && !IsSpace(s[c])
    ensures LeadingSpaces(s) <= k < LeadingSpaces(s) + |Strip(s)|
    ensures Strip(s)[k - LeadingSpaces(s)] == s[k]
  {
  }

  // ---------------------------------------------------------------------
  // Substring occurrence

  /** `p` occurs in `s` starting at index `i`. */
  predicate OccursAt(s: string, p: string, i: nat) {
    i + |p| <= |s| && s[i..i + |p|] == p
  }

  predicate Contains(s: string, p: string) {
    exists i: nat | i <= |s| - |p| :: OccursAt(s, p, i)
  }

  /** `p` occurs at `i` and fills a whole line of `s`: it starts at the
      beginning of `s` or right after a line feed, and ends at the end of `s`
      or right before one. */
  predicate WholeLineAt(s: string, p: string, i: nat) {
    && OccursAt(s, p, i)
    && (i == 0 || s[i - 1] == '\n')
    && (i + |p| == |s| || s[i + |p|] == '\n')
  }

  predicate HasWholeLine(s: string, p: string) {
    exists i: nat | i <= |s| - |p| :: WholeLineAt(s, p, i)
  }

  predicate NoNewline(s: string) {
    '\n' !in s
  }

  // ---------------------------------------------------------------------
  // Lines

  /** Length of the first line of `t`: the index of its first line feed, or
      `|t|` when there is none. */
  function LineLength(t: string): (k: nat)
    ensures k <= |t|
    ensures forall j :: 0 <= j < k ==> t[j] != '\n'
    ensures k < |t| ==> t[k] == '\n'
  {
    if |t| == 0 || t[0] == '\n' then 0 else 1 + LineLength(t[1..])
  }

  /** The lines of a file as `grep` and `tail` see them: the pieces between
      line feeds, where a final line feed ends the last line rather than
      starting an empty one. */
  function Lines(t: string): (ls: seq<string>)
    ensures forall l <- ls :: NoNewline(l)
    decreases |t|
  {
    if t == [] then []
    else
      var k := LineLength(t);
      if k == |t| then [t]
      else [t[..k]] + Lines(t[k + 1..])
  }

  /** Each line followed by a line feed: how `grep` prints the lines it
      selects, and how `echo` terminates what it writes. */
  function Joined(ls: seq<string>): string {
    if ls == [] then [] else ls[0] + "\n" + Joined(ls[1..])
  }

  /** A sequence is what comes before position `k`, the element there, and
      what comes after. */
  lemma SplitAround<T>(s: seq<T>, k: nat)
    requires k < |s|
    ensures s == s[..k] + [s[k]] + s[k + 1..]
  {
  }

  /** Concatenation regroups freely. */
  lemma Regroup<T>(x: seq<T>, y: seq<T>, z: seq<T>, w: seq<T>)
    ensures x + y + z + w == x + y + (z + w)
    ensures x + (y + w) == x + y + w
  {
  }

  /** A sequence is its three pieces cut at `i` and `j`. */
  lemma SplitThree<T>(s: seq<T>, i: nat, j: nat)
    requires i <= j <= |s|
    ensures s == s[..i] + s[i..j] + s[j..]
  {
  }

  /** A slice inside the left part of a concatenation. */
  lemma SliceLeft<T>(x: seq<T>, y: seq<T>, i: nat, j: nat)
    requires i <= j <= |x|
    ensures (x + y)[i..j] == x[i..j]
  {
  }

  /** A slice inside the right part of a concatenation. */
  lemma SliceRight<T>(x: seq<T>, y: seq<T>, i: nat, j: nat)
    requires |x| <= i <= j <= |x| + |y|
    ensures (x + y)[i..j] == y[i - |x|..j - |x|]
  {
  }

  /** A file with no line feed is one unterminated line. */
  lemma SingleLine(t: string)
    requires t != [] && LineLength(t) == |t|
    ensures NoNewline(t) && Lines(t) == [t]
  {
    assert forall j :: 0 <= j < |t| ==> t[j] != '\n';
  }

  /** Otherwise it is its first line, a line feed and the rest. */
  lemma FirstLineAndRest(t: string)
    requires LineLength(t) < |t|
    ensures t == t[..LineLength(t)] + "\n" + t[LineLength(t) + 1..]
    ensures Lines(t) == [t[..LineLength(t)]] + Lines(t[LineLength(t) + 1..])
  {
    var k := LineLength(t);
    SplitAround(t, k);
  }

  /** A file is either one unterminated line or a first line, a line feed
      and the rest. */
  lemma SplitFirstLine(t: string)
    requires t != []
    ensures LineLength(t) == |t| ==> NoNewline(t) && Lines(t) == [t]
    ensures LineLength(t) < |t| ==>
      && t == t[..LineLength(t)] + "\n" + t[LineLength(t) + 1..]
      && Lines(t) == [t[..LineLength(t)]] + Lines(t[LineLength(t) + 1..])
  {
    if LineLength(t) < |t| {
      FirstLineAndRest(t);
    } else {
      SingleLine(t);
    }
  }

  /** The first line of `h + "\n" + r`, for a newline-free `h`, is `h`. */
  lemma LinesCons(h: string, r: string)
    requires NoNewline(h)
    ensures Lines(h + "\n" + r) == [h] + Lines(r)
  {
    var t := h + "\n" + r;
    assert forall j :: 0 <= j < |h| ==> t[j] == h[j];
    assert t[|h|] == '\n';
    assert LineLength(t) == |h|;
    assert t[..|h|] == h;
    assert t[|h| + 1..] == r;
  }

  /** Splitting the joined lines gives the lines back. */
  lemma {:induction false} LinesOfJoined(ls: seq<string>)
    requires forall l <- ls :: NoNewline(l)
    ensures Lines(Joined(ls)) == ls
  {
    if ls != [] {
      LinesCons(ls[0], Joined(ls[1..]));
      LinesOfJoined(ls[1..]);
    }
  }

  /** Joining the lines of a file gives the file back, with a line feed
      added at the end when the last line had none. */
  lemma {:induction false} JoinedOfLines(t: string)
    ensures Joined(Lines(t)) == if t == [] || t[|t| - 1] == '\n' then t else t + "\n"
    decreases |t|
  {
    if t != [] {
      var k := LineLength(t);
      if k == |t| {
        SingleLine(t);
        assert t[|t| - 1] != '\n' by {
          assert t[|t| - 1] in t;
        }
        assert Joined([t]) == t + "\n" + Joined([]);
      } else {
        var h := t[..k];
        var rest := t[k + 1..];
        FirstLineAndRest(t);
        var end := if rest == [] || rest[|rest| - 1] == '\n' then rest else rest + "\n";
        calc {
          Joined(Lines(t));
          Joined([h] + Lines(rest));
          { assert ([h] + Lines(rest))[1..] == Lines(rest); }
          h + "\n" + Joined(Lines(rest));
          { JoinedOfLines(rest); }
          h + "\n" + end;
        }
        assert h + "\n" + end == if t == [] || t[|t| - 1] == '\n' then t else t + "\n" by {
          assert t == h + "\n" + rest;
          assert rest != [] ==> rest[|rest| - 1] == t[|t| - 1];
          if rest != [] && rest[|rest| - 1] != '\n' {
            Regroup(h, "\n", rest, "\n");
          }
        }
      }
    }
  }


  /** A file that ends in a line feed is its first line, a line feed, and a
      rest that again is empty or ends in a line feed. */
  lemma TerminatedFirstLine(a: string)
    requires a != [] && a[|a| - 1] == '\n'
    ensures LineLength(a) < |a|
    ensures NoNewline(a[..LineLength(a)])
    ensures a == a[..LineLength(a)] + "\n" + a[LineLength(a) + 1..]
    ensures Lines(a) == [a[..LineLength(a)]] + Lines(a[LineLength(a) + 1..])
    ensures var a' := a[LineLength(a) + 1..]; a' == [] || a'[|a'| - 1] == '\n'
  {
    var k := LineLength(a);
    assert a[|a| - 1] == '\n';
    assert k < |a|;
    var h := a[..k];
    assert forall j :: 0 <= j < |h| ==> h[j] == a[j];
    FirstLineAndRest(a);
  }

  /** Lines of a file that ends in a line feed followed by more text are the
      lines of each part. */
  lemma {:induction false} LinesOfAppend(a: string, b: string)
    requires a == [] || a[|a| - 1] == '\n'
    ensures Lines(a + b) == Lines(a) + Lines(b)
    decreases |a|
  {
    if a != [] {
      var k := LineLength(a);
      var h := a[..k];
      var a' := a[k + 1..];
      TerminatedFirstLine(a);
      calc {
        Lines(a + b);
        == { Regroup(h, "\n", a', b); }
        Lines(h + "\n" + (a' + b));
        == { LinesCons(h, a' + b); }
        [h] + Lines(a' + b);
        == { LinesOfAppend(a', b); }
        [h] + (Lines(a') + Lines(b));
        == { Regroup([h], Lines(a'), Lines(b), []); }
        Lines(a) + Lines(b);
      }
    } else {
      assert a + b == b;
    }
  }

  /** A newline-free `p` occurs in `h + "\n" + r` exactly when it occurs in
      `h` or in `r`. */
  lemma ContainsAcrossNewline(h: string, r: string, p: string)
    requires |p| > 0 && NoNewline(p)
    ensures Contains(h + "\n" + r, p) <==> Contains(h, p) || Contains(r, p)
  {
    var t := h + "\n" + r;
    var off := |h| + 1;
    if Contains(t, p) {
      var i: nat :| i <= |t| - |p| && OccursAt(t, p, i);
      if i + |p| <= |h| {
        SliceLeft(h, "\n" + r, i, i + |p|);
        Regroup(h, "\n", r, []);
        assert OccursAt(h, p, i);
      } else {
        assert i > |h| by {
          assert forall j :: i <= j < i + |p| ==> t[j] == p[j - i];
          assert t[|h|] == '\n';
        }
        SliceRight(h + "\n", r, i, i + |p|);
        assert OccursAt(r, p, i - off);
      }
    }
    if Contains(h, p) {
      var i: nat :| i <= |h| - |p| && OccursAt(h, p, i);
      SliceLeft(h, "\n" + r, i, i + |p|);
      Regroup(h, "\n", r, []);
      assert OccursAt(t, p, i);
    }
    if Contains(r, p) {
      var i: nat :| i <= |r| - |p| && OccursAt(r, p, i);
      SliceRight(h + "\n", r, off + i, off + i + |p|);
      assert OccursAt(t, p, off + i);
    }
  }

  /** A newline-free, non-empty `p` occurs in a file exactly when it occurs
      inside one of the file's lines. */
  lemma {:induction false} ContainsIffSomeLine(t: string, p: string)
    requires |p| > 0 && NoNewline(p)
    ensures Contains(t, p) <==> exists l <- Lines(t) :: Contains(l, p)
    decreases |t|
  {
    if t != [] {
      SplitFirstLine(t);
      var k := LineLength(t);
      if k < |t| {
        var h := t[..k];
        var rest := t[k + 1..];
        ContainsAcrossNewline(h, rest, p);
        ContainsIffSomeLine(rest, p);
      }
    }
  }

  /** A newline-free `p` filling a whole line of `h + "\n" + r`, for a
      newline-free `h`, is `h` or fills a whole line of `r`. */
  lemma WholeLineAcrossNewlineOnly(h: string, r: string, p: string, i: nat)
    requires NoNewline(h) && NoNewline(p)
    requires WholeLineAt(h + "\n" + r, p, i)
    ensures p == h || HasWholeLine(r, p)
  {
    var t := h + "\n" + r;
    var off := |h| + 1;
    assert forall j :: 0 <= j < |h| ==> t[j] == h[j];
    assert forall j :: i <= j < i + |p| ==> t[j] == p[j - i];
    assert t[|h|] == '\n';
    if i <= |h| {
      assert i == 0;
      assert |p| == |h|;
      assert p == t[..|h|] == h;
    } else {
      var i' := i - off;
      assert r[i'..i' + |p|] == t[i..i + |p|];
      assert i' > 0 ==> r[i' - 1] == t[i - 1];
      assert i' + |p| < |r| ==> r[i' + |p|] == t[i + |p|];
      assert WholeLineAt(r, p, i');
    }
  }

  /** A whole line of `r` is a whole line of `h + "\n" + r`. */
  lemma WholeLineShift(h: string, r: string, p: string, i': nat)
    requires WholeLineAt(r, p, i')
    ensures WholeLineAt(h + "\n" + r, p, i' + |h| + 1)
  {
    var t := h + "\n" + r;
    var i := i' + |h| + 1;
    assert t[i..i + |p|] == r[i'..i' + |p|];
    assert t[i - 1] == if i' == 0 then '\n' else r[i' - 1];
    assert i' + |p| < |r| ==> r[i' + |p|] == t[i + |p|];
  }

  /** A newline-free `p` fills a whole line of `h + "\n" + r`, for a
      newline-free `h`, exactly when it is `h` or fills a whole line of `r`. */
  lemma WholeLineAcrossNewline(h: string, r: string, p: string)
    requires NoNewline(h) && NoNewline(p)
    ensures HasWholeLine(h + "\n" + r, p) <==> p == h || HasWholeLine(r, p)
  {
    var t := h + "\n" + r;
    if HasWholeLine(t, p) {
      var i: nat :| i <= |t| - |p| && WholeLineAt(t, p, i);
      WholeLineAcrossNewlineOnly(h, r, p, i);
    }
    if p == h {
      assert t[..|h|] == h;
      assert WholeLineAt(t, p, 0);
    }
    if HasWholeLine(r, p) {
      var i': nat :| i' <= |r| - |p| && WholeLineAt(r, p, i');
      WholeLineShift(h, r, p, i');
    }
  }

  /** A newline-free, non-empty `p` fills a whole line of a file exactly
      when it is one of the file's lines. */
  lemma {:induction false} WholeLineIffLine(t: string, p: string)
    requires |p| > 0 && NoNewline(p)
    ensures HasWholeLine(t, p) <==> p in Lines(t)
    decreases |t|
  {
    if t != [] {
      SplitFirstLine(t);
      var k := LineLength(t);
      if k == |t| {
        assert t + "\n" + [] == t + "\n";
        WholeLineAcrossNewline(t, [], p);
        assert HasWholeLine(t, p) <==> HasWholeLine(t + "\n", p) by {
          if HasWholeLine(t + "\n", p) {
            var i: nat :| i <= |t| + 1 - |p| && WholeLineAt(t + "\n", p, i);
            assert (t + "\n")[i..i + |p|] == t[i..i + |p|];
            assert WholeLineAt(t, p, i);
          }
          if HasWholeLine(t, p) {
            var i: nat :| i <= |t| - |p| && WholeLineAt(t, p, i);
            assert (t + "\n")[i..i + |p|] == t[i..i + |p|];
            assert WholeLineAt(t + "\n", p, i);
          }
        }
      } else {
        var h := t[..k];
        var rest := t[k + 1..];
        WholeLineAcrossNewline(h, rest, p);
        WholeLineIffLine(rest, p);
      }
    }
  }
}

=== FILE: wrappers.dfy ===
/** Option and Result: the failure-carrying values the model uses in place of
    Ruby's nil and raised exceptions. */
module Wrappers {

  datatype Option<+T> = None | Some(value: T)

  /** Either a value or an error; the Ruby code raises where this is `Err`. */
  datatype Result<+T, +E> = Ok(value: T) | Err(error: E)
}
